=== FILE: README.md ===
# Product cohort recap, modelled in Dafny

This project models `product_recap_fixed` from `main.py`, the per-product
lifetime-value recap of the marketing dashboard. Given cleaned order rows
(customer, product, order date, order value), the function does the following:

1. It assigns every (product, customer) pair a **cohort month**: the earliest
   month in which that customer ordered that product.
2. It tags every order with its **months_since** offset from that cohort month,
   counted in calendar months.
3. It sums revenue per (product, cohort month, offset) bucket and counts the
   distinct customers of every (product, cohort month) cohort.
4. For every cohort, it fills the missing offsets up to
   `max(horizon_1, horizon_24)` with zero and turns the series into a
   **cumulative** revenue series. It then divides that series by the cohort
   size to get the cumulative **ARPU** (average revenue per user).
5. For every product and offset, it blends the cohorts into one value: the
   mean ARPU weighted by cohort size.
6. It reads that blend at the two horizons (`LTV_1m`, `LTV_24m`), outer-joins
   the two readings on product, computes `LTV_24m/1m_ratio`, and sorts the
   rows by that ratio, largest first.

The model has one module per stage:

| file | module | stage |
|---|---|---|
| `options.dfy` | `Options` | `Option`, the model's stand-in for NaN and missing values |
| `calendar.dfy` | `Calendar` | dates, the truncation to month, month offsets |
| `grouping.dfy` | `Grouping` | keyed tables: group-by-sum, lookup with zero fill, distinct values |
| `cohorts.dfy` | `Cohorts` | cohort month, tagging, revenue buckets, cohort sizes |
| `curves.dfy` | `CohortCurves` | `complete_and_cumsum`, per-cohort ARPU, the `full` table |
| `blend.dfy` | `Blend` | the size-weighted blend `prod_w` |
| `recap.dfy` | `Recap` | horizon slices, outer join, ratio, ranking |
| `pipeline.dfy` | `Pipeline` | the whole function end to end |
| `scenario.dfy` | `Scenario` | a worked example of three orders, end to end |

Pandas data frames are modelled as sequences of rows. A grouped-and-summed
frame is a sequence of (key, value) pairs with distinct keys. The cohort-size
frame is a `map`. Floating-point numbers are exact `real`s. NaN, and a row
that does not exist, are `None`. Pandas' `sum` skips NaN, so in the weighted sum
of the blend an unknown ARPU contributes nothing (`Blend.Contribution`). The
`full` table never holds one, because every cohort in it has at least one
customer.

## Model

| member | source | states |
|---|---|---|
| Calendar.MonthOf | main.py:3 | Truncating a valid order date to its month gives a valid month. |
| Calendar.MonthsSince | main.py:11-12 | `(year diff)*12 + (month diff)` is the distance between the two months on the absolute month line. |
| Calendar.MonthsSinceIgnoresDay | main.py:3 | Two orders in the same year and month get the same offset, whatever their days. |
| Calendar.OrdinalInjective | main.py:11-12 | Two valid months at the same position on the month line are the same month, so a zero offset means the cohort month itself. |
| Grouping.GroupSum | main.py:15-19 | The group-by-sum has one row per key. A key has a row exactly when some input row carries it. The row holds the sum of that key's values. The grand total is unchanged. |
| Grouping.AddTo | main.py:15-19 | Adding a value under a key keeps the keys distinct, adds exactly that key if it was missing, changes only that key's sum, and raises the total by the value. |
| Grouping.Lookup | main.py:31-32 | Reading a key from a table gives that key's row value, or 0 when the key has no row (the fill value of the reindex). |
| Cohorts.CohortMonth | main.py:4-9 | The cohort month of a pair is None exactly when the pair has no order. Otherwise it is the month of one of the pair's orders, and no order of the pair is earlier. |
| Cohorts.Tag | main.py:10-12 | The left merge keeps every order with its customer, product and value. It attaches the cohort month of the order's pair and the order's month offset from that cohort month. |
| Cohorts.TagCohortIsMinimum | main.py:4-10 | The cohort month joined onto an order is no later than any order of its pair, and some order of the pair falls in it. |
| Cohorts.TagCohortSharedByPair | main.py:4-10 | All orders of one (product, customer) pair get the same cohort month. |
| Cohorts.MonthsSinceNonNegative | main.py:4-12 | No order has a negative months_since. |
| Cohorts.Revenue | main.py:15-19 | The revenue frame has one row per (product, cohort, offset) that occurs among the orders, holding the sum of those orders' values, and no other row. |
| Cohorts.RevenueConservesOrderValue | main.py:15-19 | The buckets add up to the total order value: no order is lost or counted twice. |
| Cohorts.RevenueNonNegative | main.py:15-19 | With non-negative order values every bucket is non-negative. |
| Cohorts.RevenueProducts | main.py:15-19 | A product has a revenue bucket exactly when one of the tagged rows is of that product. |
| Cohorts.CohortRevenueStep | main.py:15-19 | Widening a cohort's window from offsets up to t-1 to offsets up to t adds exactly the revenue bucket of (cohort, t). |
| Cohorts.TagProducts | main.py:10 | The left merge keeps the set of ordered products. |
| Cohorts.CohortSizes | main.py:21-26 | There is a size row for exactly the cohorts that occur. Each holds the number of distinct customers of the cohort, which is at least 1. |
| Cohorts.EveryBucketHasCustomers | main.py:21-34 | Every revenue bucket's cohort has a size row of at least one customer. The size lookup therefore always succeeds, and the NaN branch of the ARPU division is never taken. |
| CohortCurves.RevenueThroughStep | main.py:30-32 | The revenue up to offset t is the revenue up to t-1 plus the revenue at t, or plus 0 when t has no bucket. |
| CohortCurves.CompleteAndCumsum | main.py:30-32 | The completed series has every offset 0..max_horizon. Its value at t is the cohort's revenue at offsets up to t, with missing offsets counted as 0. |
| CohortCurves.CumulativeNonDecreasing | main.py:30-32 | With non-negative revenue the cumulative series never decreases. |
| CohortCurves.GapFillExample | main.py:30-32 | Revenue at offsets 0 and 3 only, completed to horizon 5, gives `[a, a, a, a+b, a+b, a+b]`. |
| CohortCurves.CohortArpu | main.py:34 | The ARPU is defined exactly when the size is positive, and ARPU times size is the cumulative revenue. |
| CohortCurves.ArpuNonDecreasing | main.py:34 | Dividing by a positive size keeps the order of the cumulative series. |
| CohortCurves.SeriesOf | main.py:29-31 | A cohort's series has distinct offsets, each offset taken from one of the cohort's buckets. Its value at every offset is the cohort's bucket revenue there. |
| CohortCurves.BuildCurve | main.py:32-41 | A cohort's rows carry its product, cohort month and size, and have every offset 0..max_horizon. At each offset the ARPU is defined exactly when the size is positive, and then it is the cohort's revenue up to that offset divided by the size. |
| CohortCurves.CurveNonDecreasing | main.py:30-34 | With non-negative revenue a cohort's cumulative ARPU never decreases along the offsets. |
| CohortCurves.CohortsOf | main.py:29 | The loop visits every cohort with a revenue bucket exactly once. |
| CohortCurves.Curves | main.py:28-44 | Every curve is of a cohort that has a revenue bucket, no cohort has two curves, and every cohort with a revenue bucket has one. Each curve's size is the cohort's entry in the size frame. Each curve has every offset 0..max_horizon, and its ARPU at t is the sum of the cohort's buckets at offsets up to t divided by that size. |
| CohortCurves.SeriesRevenue | main.py:29-32 | Summing a cohort's group of the revenue frame up to offset t gives the value of the cohort's orders at offsets 0..t, counted directly over the tagged rows. |
| CohortCurves.CurvesHoldCohortRevenue | main.py:29-41 | Every curve built from the revenue frame of the tagged rows holds, at every offset t, the value of its cohort's orders at offsets 0..t divided by its size. |
| CohortCurves.KeyedByRowCohorts | main.py:29-44 | Curves keyed by exactly the cohorts of the revenue frame have a curve for a cohort exactly when some tagged row belongs to that cohort. |
| CohortCurves.CurvesProducts | main.py:28-44 | The `full` table has a curve for exactly the products that have revenue. |
| Blend.Contribution | main.py:50 | A cohort with an unknown ARPU (NaN, which the sum skips) or without customers adds nothing to the weighted sum. |
| Blend.ContributionRecoversArpu | main.py:50 | Dividing a cohort's term of the weighted sum by the cohort size gives back its ARPU. |
| Blend.WeightSumSkipsUnknown | main.py:50 | When no cohort of the product has both customers and a known ARPU at t, the weighted sum is 0, whatever the other products' rows hold. |
| Blend.WeightSumAppend | main.py:48-50 | The weighted sum over two runs of rows is the sum of their weighted sums, so the rows of other cohorts do not interfere. |
| Blend.SizeSum | main.py:51 | The denominator is non-negative. It is positive exactly when some cohort of the product has customers. |
| Blend.Blended | main.py:50-53 | A blended value exists exactly when some cohort of the product has customers. The value times the denominator is the size-weighted ARPU sum. |
| Blend.WeightSumBounds | main.py:50-51 | If every contributing cohort's ARPU lies in [lo, hi], the weighted sum lies between lo and hi times the denominator. |
| Blend.BlendWithinCohortRange | main.py:50-53 | The blended value lies between the smallest and largest ARPU of the cohorts it blends. |
| Blend.BlendSingleCohort | main.py:50-53 | With one cohort with customers, the blend is that cohort's ARPU. |
| Blend.BlendExample | main.py:50-53 | Cohorts of sizes 10 and 30 with ARPU 5.0 and 7.0 blend to 6.5. |
| Blend.BlendNonDecreasing | main.py:48-53 | If no cohort's ARPU decreases from t to u, both offsets get a row or neither does, and the blend does not decrease. |
| Blend.WeightedCurve | main.py:47-54 | `prod_w` has a row for (product, t) exactly when t is an offset of the curves and some cohort of the product has customers. That row holds the blend. |
| Blend.WeightedCurveKeys | main.py:47-54 | When every cohort has customers, `prod_w` has every offset 0..max_horizon for every product with a curve. |
| Blend.CohortGrows | main.py:30-34 | A curve built from a cohort's group of non-negative revenue buckets, with customers, has an ARPU at t no larger than at any later offset u. |
| Blend.CurvesGrow | main.py:28-44 | With non-negative revenue no cohort of the `full` table loses ARPU from offset t to offset u. |
| Recap.Horizon | main.py:56-57 | The slice of `prod_w` at horizon h is None for product p exactly when `prod_w` has no row of p at offset h. Otherwise it is the value of that row. |
| Recap.RowOf | main.py:56-59 | A product's recap row holds its two slices. Its ratio is defined exactly when the product has a row at both horizons and LTV_1m is not zero, and then ratio times LTV_1m is LTV_24m. |
| Recap.Ratio | main.py:59 | The ratio is defined exactly when both horizons are present and LTV_1m is not zero. Ratio times LTV_1m is LTV_24m. |
| Recap.RatioAtLeastOne | main.py:59 | When 0 < LTV_1m <= LTV_24m the ratio is at least 1. |
| Recap.Join | main.py:56-58 | The outer join has a row for exactly the products present at either horizon, each product once, with the two slices and their ratio. |
| Recap.Insert | main.py:60 | Inserting a row adds exactly that row. |
| Recap.InsertRanked | main.py:60 | Insertion keeps a ranked table ranked. |
| Recap.RankingRanked | main.py:60 | Insertion sort ranks the table. |
| Recap.RankingUnique | main.py:60 | Sorting keeps at most one row per product. |
| Recap.SortByRatio | main.py:60 | Sorting is a permutation. Rows with an undefined ratio come after all rows with a defined one, and defined ratios do not increase down the table. |
| Recap.RecapTable | main.py:56-60 | The recap has one row per product present at either horizon. Each row holds the value of `prod_w` at (product, horizon_1) and at (product, horizon_24), or None where that row is missing, and their ratio. The table is ranked by ratio with undefined ratios last. |
| Recap.NegativeHorizonUnknown | main.py:56-59 | A horizon before offset 0 matches no row of `prod_w`, so every recap row has an unknown value at that horizon and an unknown ratio. |
| Recap.RecapOfDenseCurve | main.py:56-59 | If `prod_w` has every offset up to the larger horizon for every product, every product gets a row, and both horizons are known in every row. |
| Pipeline.FullTable | main.py:3-44 | The `full` table has a curve for exactly the ordered products. Every curve is dense up to the larger horizon and has at least one customer, so every ARPU in it is defined. |
| Pipeline.FullTableValues | main.py:3-44 | Every curve of the `full` table is dense up to max_horizon. Its size is the number of distinct customers of its cohort among the orders. Its ARPU at t is the value of the cohort's orders within its first t months divided by that size. |
| Pipeline.FullTableCohorts | main.py:3-44 | The `full` table has no cohort twice, and has a curve for a (product, cohort month) exactly when some order belongs to that cohort. |
| Pipeline.FullTableGrows | main.py:3-44 | With non-negative order values, no cohort's cumulative ARPU decreases between two offsets. |
| Pipeline.ProductCurve | main.py:3-54 | `prod_w` has every offset 0..max(horizon_1, horizon_24) for every ordered product, and nothing else. Each row holds the blend of that product's cohorts. |
| Pipeline.RecapRows | main.py:1-60 | The recap has at most one row per product. Each row is the product's reading of `prod_w` at the two horizons, with their ratio. It is ranked by ratio with undefined ratios last. |
| Pipeline.RecapCoversProducts | main.py:1-60 | The recap has a row for exactly the ordered products. Both horizons are known in every row, and the ratio is defined exactly when LTV_1m is not zero. |
| Pipeline.RecapLtvGrows | main.py:1-60 | With non-negative order values and horizon_1 <= horizon_24, no product's LTV_24m is below its LTV_1m. |
| Pipeline.LtvGrowsWithBlend | main.py:47-59 | A recap read from the blend of curves whose ARPU does not fall from horizon_1 to horizon_24 has LTV_1m <= LTV_24m in every row. |
| Pipeline.ProductRecap | main.py:1-60 | The call fails exactly when there is no order (there is no cohort frame to concatenate). Otherwise it returns the recap, which has at least one row. |
| Scenario.SampleTagged | main.py:3-12 | In the example (customer 1 orders 10 in January 2024 and 5 in February, customer 2 orders 20 in January, all of product p), every order gets the January cohort, at offsets 0, 1 and 0. |
| Scenario.SampleCohort | main.py:15-26 | The example has one cohort, (p, January). It has customers 1 and 2, revenue 30 at offset 0 and 35 up to offset 1. |
| Scenario.SampleTable | main.py:28-44 | Orders whose tagged rows form the example's single cohort (customers 1 and 2, revenue 30 at offset 0 and 35 up to offset 1) give, at max_horizon 1, a `full` table of one curve: (p, January), size 2, ARPU 15.0 and 17.5. |
| Scenario.SampleCurve | main.py:47-54 | When p is the only ordered product and the `full` table is that one curve, `prod_w` holds 15.0 at (p, 0) and 17.5 at (p, 1), and nothing else. |
| Scenario.SampleRecap | main.py:56-60 | When p is the only ordered product and `prod_w` is that curve, the recap at horizons 0 and 1 is the single row (p, 15.0, 17.5, 17.5/15.0). |
| Scenario.SampleScenario | main.py:1-60 | On the example's three orders, the `full` table, `prod_w` and the recap are exactly those values. |

## Left out

- The dashboard lines after the function (main.py:62-65) are left out. They call `show_code` and `show_table` on the global `df` and are presentation only.
- Ingestion is left out: reading and cleaning `df`, and parsing numbers and dates. The model starts from `Order` rows. The monotonicity lemmas (`Pipeline.FullTableGrows`, `Pipeline.RecapLtvGrows`, `Cohorts.RevenueNonNegative`) need only non-negative order values (`Cohorts.ValuesNonNegative`). Valid dates are needed only for a cohort month to be a real calendar month (`Calendar.MonthOf`).
- The body of `complete_and_cumsum` is not part of this model, because the file does not define it. `CohortCurves.CompleteAndCumsum` is one definition meeting what its call site and comment at main.py:30-32 require.
- CohortCurves.CompleteAndCumsum: the model assumes the helper returns exactly the offsets 0..max(horizon_1, horizon_24) and drops any later offset of the group. `Pipeline.ProductCurve`'s "and nothing else" rests on that assumption. The recap does not, because it reads only offsets horizon_1 and horizon_24, which are both within that range.
- Floating point is not modelled. Values are exact reals, so rounding in the running sums and in the divisions is not represented.
- Recap.Ratio: a zero LTV_1m gives None. In floating point it gives inf when LTV_24m is positive and NaN when LTV_24m is zero. Pandas ranks inf first and NaN last. The model ranks every undefined ratio last.
- Recap.SortByRatio: the contract fixes the order only by ratio. Pandas' default sort is not stable, so the order among equal ratios and among undefined ratios is unspecified. The insertion sort picks one admissible order.
- Recap.Join: the outer join is taken over the products in the order of the product column. Pandas orders the join by product. The ranking makes that order irrelevant except among ties.
- Pipeline.ProductRecap: the default arguments `horizon_1=1, horizon_24=24` (main.py:1) have no counterpart; both horizons are explicit parameters, and the default call is `ProductRecap(orders, 1, 24)`. No behaviour is lost.
- Pipeline.ProductRecap: the horizons are natural numbers, because the only call (main.py:62) passes 1 and 24. The source also runs with one negative horizon. `complete_and_cumsum` then gets the other, non-negative horizon as its maximum (main.py:32), the slice at the negative horizon is empty (main.py:56-57), and the outer join gives every product an unknown value there and an unknown ratio. The recap stage gives the same result (`Recap.NegativeHorizonUnknown`), but `ProductRecap` does not take such a call. Only when both horizons are negative does the helper receive a negative maximum, and what it does then is unknown.
- Calendar.MonthOf: a valid date only needs a month in 1..12 and a day in 1..31. Month lengths and leap years do not matter, because the day is discarded.
- Pandas mechanics have no counterpart of their own: merge, groupby, reset_index, `datetime64[M]` and concat. Only their effect on rows is modelled.

=== FILE: blend.dfy ===
/**
 * Cross-cohort blend: for each product and offset, the mean of the cohorts'
 * cumulative ARPU weighted by cohort size. A (product, offset) pair whose
 * total weight is zero gets no row at all.
 */
module Blend {

  import opened Options
  import opened Calendar
  import opened Grouping
  import opened Cohorts
  import opened CohortCurves

  /** Every curve has a row at offset t. */
  predicate Covers(curves: seq<CohortCurve>, t: nat)
  {
    forall i :: 0 <= i < |curves| ==> t < |curves[i].arpu|
  }

  /**
   * One cohort's term `cum_arpu * cohort_size` of the weighted sum. An
   * unknown ARPU adds nothing, as pandas' sum skips NaN, and so does a
   * cohort without customers.
   */
  function Contribution(c: CohortCurve, t: nat): (x: real)
    requires t < |c.arpu|
    ensures c.arpu[t].None? || c.size == 0 ==> x == 0.0
  {
    match c.arpu[t]
    case Some(a) => a * (c.size as real)
    case None => 0.0
  }

  /** A cohort's term divided by its size gives back its ARPU. */
  lemma ContributionRecoversArpu(c: CohortCurve, t: nat)
    requires t < |c.arpu| && c.arpu[t].Some? && c.size > 0
    ensures Contribution(c, t) / (c.size as real) == c.arpu[t].value
  {
  }

  /** Σ cum_arpu·cohort_size over the curves of product p at offset t. */
  function WeightSum(curves: seq<CohortCurve>, p: string, t: nat): real
    requires Covers(curves, t)
  {
    if |curves| == 0 then 0.0
    else (if curves[0].product == p then Contribution(curves[0], t) else 0.0) + WeightSum(curves[1..], p, t)
  }

  /**
   * Rows that add nothing: when no cohort of p has both customers and a
   * known ARPU at t, the weighted sum is 0, whatever the other products'
   * rows hold.
   */
  lemma {:induction false} WeightSumSkipsUnknown(curves: seq<CohortCurve>, p: string, t: nat)
    requires Covers(curves, t)
    requires forall i :: 0 <= i < |curves| && curves[i].product == p ==> curves[i].arpu[t].None? || curves[i].size == 0
    ensures WeightSum(curves, p, t) == 0.0
  {
    if |curves| > 0 {
      assert forall i :: 0 <= i < |curves[1..]| ==> curves[1..][i] == curves[i + 1];
      WeightSumSkipsUnknown(curves[1..], p, t);
    }
  }

  /** The weighted sum over two runs of rows is the sum of their weighted sums: rows group independently. */
  lemma {:induction false} WeightSumAppend(a: seq<CohortCurve>, b: seq<CohortCurve>, p: string, t: nat)
    requires Covers(a, t) && Covers(b, t)
    ensures Covers(a + b, t)
    ensures WeightSum(a + b, p, t) == WeightSum(a, p, t) + WeightSum(b, p, t)
  {
    if |a| == 0 {
      assert a + b == b;
    } else {
      assert (a + b)[0] == a[0] && (a + b)[1..] == a[1..] + b;
      WeightSumAppend(a[1..], b, p, t);
    }
  }

  /**
   * Σ cohort_size over the curves of product p. Every curve is dense, so the
   * cohorts present at an offset are all cohorts of the product and the
   * total does not depend on the offset.
   */
  function SizeSum(curves: seq<CohortCurve>, p: string): (n: real)
    ensures n >= 0.0
    ensures n > 0.0 <==> exists i :: 0 <= i < |curves| && curves[i].product == p && curves[i].size > 0
  {
    if |curves| == 0 then 0.0
    else
      var rest := SizeSum(curves[1..], p);
      assert forall i :: 1 <= i < |curves| ==> curves[i] == curves[1..][i - 1];
      (if curves[0].product == p then curves[0].size as real else 0.0) + rest
  }

  /** The weighted cumulative ARPU of product p at offset t, or None when the total weight is zero. */
  function Blended(curves: seq<CohortCurve>, p: string, t: nat): (r: Option<real>)
    requires Covers(curves, t)
    ensures r.Some? <==> exists i :: 0 <= i < |curves| && curves[i].product == p && curves[i].size > 0
    ensures r.Some? ==> r.value * SizeSum(curves, p) == WeightSum(curves, p, t)
  {
    var denom := SizeSum(curves, p);
    if denom > 0.0 then Some(WeightSum(curves, p, t) / denom) else None
  }

  /** Every cohort of p with customers has a known ARPU at t that lies in [lo, hi]. */
  predicate ArpuWithin(curves: seq<CohortCurve>, p: string, t: nat, lo: real, hi: real)
    requires Covers(curves, t)
  {
    forall i :: 0 <= i < |curves| && curves[i].product == p && curves[i].size > 0 ==>
      curves[i].arpu[t].Some? && lo <= curves[i].arpu[t].value <= hi
  }

  lemma ScaleMonotone(a: real, b: real, n: real)
    requires a <= b && n >= 0.0
    ensures a * n <= b * n
  {
  }

  /** lo·weight <= sum <= hi·weight: a weighted sum whose mean lies in [lo, hi]. */
  predicate Scaled(lo: real, hi: real, weight: real, sum: real)
  {
    lo * weight <= sum <= hi * weight
  }

  /** A term x == a·n with lo <= a <= hi and n >= 0 lies between lo·n and hi·n. */
  lemma TermScaled(lo: real, hi: real, a: real, n: real, x: real)
    requires lo <= a <= hi && n >= 0.0 && x == a * n
    ensures Scaled(lo, hi, n, x)
  {
    ScaleMonotone(lo, a, n);
    ScaleMonotone(a, hi, n);
  }

  lemma ZeroScaled(lo: real, hi: real, n: real, x: real)
    requires n == 0.0 && x == 0.0
    ensures Scaled(lo, hi, n, x)
  {
  }

  /** Scaled bounds add up. */
  lemma AddScaled(lo: real, hi: real, n: real, x: real, m: real, w: real, total: real, sum: real)
    requires Scaled(lo, hi, n, x) && Scaled(lo, hi, m, w)
    requires total == n + m && sum == x + w
    ensures Scaled(lo, hi, total, sum)
  {
  }

  /** If x·d == w with d > 0 and w lies between lo·d and hi·d, then x lies between lo and hi. */
  lemma Unscale(x: real, d: real, w: real, lo: real, hi: real)
    requires d > 0.0 && x * d == w
    requires Scaled(lo, hi, d, w)
    ensures lo <= x <= hi
  {
  }

  lemma {:induction false} WeightSumBounds(curves: seq<CohortCurve>, p: string, t: nat, lo: real, hi: real)
    requires Covers(curves, t)
    requires ArpuWithin(curves, p, t, lo, hi)
    ensures Scaled(lo, hi, SizeSum(curves, p), WeightSum(curves, p, t))
  {
    if |curves| > 0 {
      var c, rest := curves[0], curves[1..];
      var n := if c.product == p then c.size as real else 0.0;
      var x := if c.product == p then Contribution(c, t) else 0.0;
      if c.product == p && c.size > 0 {
        TermScaled(lo, hi, c.arpu[t].value, n, x);
      } else {
        ZeroScaled(lo, hi, n, x);
      }
      assert SizeSum(curves, p) == n + SizeSum(rest, p);
      assert WeightSum(curves, p, t) == x + WeightSum(rest, p, t);
      assert forall i :: 0 <= i < |rest| ==> rest[i] == curves[i + 1];
      assert ArpuWithin(rest, p, t, lo, hi);
      WeightSumBounds(rest, p, t, lo, hi);
      AddScaled(lo, hi, n, x, SizeSum(rest, p), WeightSum(rest, p, t), SizeSum(curves, p), WeightSum(curves, p, t));
    }
  }

  /** The blended value lies between the smallest and the largest ARPU of the cohorts it blends. */
  lemma BlendWithinCohortRange(curves: seq<CohortCurve>, p: string, t: nat, lo: real, hi: real)
    requires Covers(curves, t)
    requires ArpuWithin(curves, p, t, lo, hi)
    ensures Blended(curves, p, t).Some? ==> lo <= Blended(curves, p, t).value <= hi
  {
    var r := Blended(curves, p, t);
    if r.Some? {
      var d := SizeSum(curves, p);
      WeightSumBounds(curves, p, t, lo, hi);
      Unscale(r.value, d, WeightSum(curves, p, t), lo, hi);
    }
  }

  /** A product with a single cohort that has customers gets exactly that cohort's ARPU. */
  lemma BlendSingleCohort(curves: seq<CohortCurve>, p: string, t: nat, k: int)
    requires Covers(curves, t)
    requires 0 <= k < |curves| && curves[k].product == p && curves[k].size > 0 && curves[k].arpu[t].Some?
    requires forall i :: 0 <= i < |curves| && i != k && curves[i].product == p ==> curves[i].size == 0
    ensures Blended(curves, p, t) == Some(curves[k].arpu[t].value)
  {
    var a := curves[k].arpu[t].value;
    BlendWithinCohortRange(curves, p, t, a, a);
  }

  /** Two cohorts of sizes 10 and 30 with cumulative ARPU 5.0 and 7.0 blend to 6.5. */
  lemma BlendExample(m1: YearMonth, m2: YearMonth)
    ensures Blended([CohortCurve("p", m1, 10, [Some(5.0)]), CohortCurve("p", m2, 30, [Some(7.0)])], "p", 0) == Some(6.5)
  {
    var curves := [CohortCurve("p", m1, 10, [Some(5.0)]), CohortCurve("p", m2, 30, [Some(7.0)])];
    var tail := curves[1..];
    assert tail == [curves[1]];
    assert |tail[1..]| == 0;
    assert Contribution(curves[0], 0) == 50.0;
    assert Contribution(curves[1], 0) == 210.0;
    assert WeightSum(tail, "p", 0) == 210.0;
    assert SizeSum(tail, "p") == 30.0;
    assert SizeSum(curves, "p") == 40.0;
    assert WeightSum(curves, "p", 0) == 260.0;
  }

  lemma ContributionNonDecreasing(c: CohortCurve, t: nat, u: nat)
    requires t < |c.arpu| && u < |c.arpu|
    requires c.arpu[t].Some? && c.arpu[u].Some? && c.arpu[t].value <= c.arpu[u].value
    ensures Contribution(c, t) <= Contribution(c, u)
  {
    ScaleMonotone(c.arpu[t].value, c.arpu[u].value, c.size as real);
  }

  /** Every cohort of p with customers has a known ARPU at t and at u, and it does not decrease from t to u. */
  predicate ArpuGrows(curves: seq<CohortCurve>, p: string, t: nat, u: nat)
    requires Covers(curves, t) && Covers(curves, u)
  {
    forall i :: 0 <= i < |curves| && curves[i].product == p && curves[i].size > 0 ==>
      curves[i].arpu[t].Some? && curves[i].arpu[u].Some? && curves[i].arpu[t].value <= curves[i].arpu[u].value
  }

  lemma {:induction false} WeightSumNonDecreasing(curves: seq<CohortCurve>, p: string, t: nat, u: nat)
    requires Covers(curves, t) && Covers(curves, u)
    requires ArpuGrows(curves, p, t, u)
    ensures WeightSum(curves, p, t) <= WeightSum(curves, p, u)
  {
    if |curves| > 0 {
      var c, rest := curves[0], curves[1..];
      var x := if c.product == p then Contribution(c, t) else 0.0;
      var y := if c.product == p then Contribution(c, u) else 0.0;
      if c.product == p && c.size > 0 {
        ContributionNonDecreasing(c, t, u);
      }
      assert WeightSum(curves, p, t) == x + WeightSum(rest, p, t);
      assert WeightSum(curves, p, u) == y + WeightSum(rest, p, u);
      assert forall i :: 0 <= i < |rest| ==> rest[i] == curves[i + 1];
      assert ArpuGrows(rest, p, t, u);
      WeightSumNonDecreasing(rest, p, t, u);
    }
  }

  /** If no cohort's ARPU decreases from t to u, neither does the blend; both offsets get a row or neither does. */
  lemma BlendNonDecreasing(curves: seq<CohortCurve>, p: string, t: nat, u: nat)
    requires Covers(curves, t) && Covers(curves, u)
    requires ArpuGrows(curves, p, t, u)
    ensures Blended(curves, p, t).Some? <==> Blended(curves, p, u).Some?
    ensures Blended(curves, p, t).Some? ==> Blended(curves, p, t).value <= Blended(curves, p, u).value
  {
    if Blended(curves, p, t).Some? {
      WeightSumNonDecreasing(curves, p, t, u);
      var d := SizeSum(curves, p);
      var x, y := Blended(curves, p, t).value, Blended(curves, p, u).value;
      Unscale(x, d, WeightSum(curves, p, t), x, y);
    }
  }

  /**
   * The weighted curve `prod_w`: a row for (product, offset) exactly when
   * some cohort of the product has customers, holding the blended value.
   */
  function WeightedCurve(curves: seq<CohortCurve>, maxHorizon: nat): (w: map<(string, int), real>)
    requires forall i :: 0 <= i < |curves| ==> |curves[i].arpu| == maxHorizon + 1
    ensures forall k :: k in w <==>
      0 <= k.1 <= maxHorizon && exists i :: 0 <= i < |curves| && curves[i].product == k.0 && curves[i].size > 0
    ensures forall k :: k in w ==> Blended(curves, k.0, k.1) == Some(w[k])
  {
    map p, t | p in CurveProducts(curves) && 0 <= t <= maxHorizon && SizeSum(curves, p) > 0.0 :: (p, t) := Blended(curves, p, t).value
  }

  /** When every cohort has customers, `prod_w` has a row for every product and offset 0..maxHorizon. */
  lemma WeightedCurveKeys(curves: seq<CohortCurve>, maxHorizon: nat)
    requires forall i :: 0 <= i < |curves| ==> |curves[i].arpu| == maxHorizon + 1 && curves[i].size > 0
    ensures forall k :: k in WeightedCurve(curves, maxHorizon) <==> 0 <= k.1 <= maxHorizon && k.0 in CurveProducts(curves)
  {
    forall k: (string, int) | k.0 in CurveProducts(curves)
      ensures exists i :: 0 <= i < |curves| && curves[i].product == k.0 && curves[i].size > 0
    {
      var i :| 0 <= i < |curves| && curves[i].product == k.0;
    }
  }

  /** With non-negative revenue no cohort of the `full` table loses ARPU from offset t to offset u. */
  lemma CurvesGrow(rev: seq<(BucketKey, real)>, sizes: map<CohortKey, nat>, maxHorizon: nat, t: nat, u: nat)
    requires DistinctKeys(rev) && NonNegative(rev)
    requires forall i :: 0 <= i < |rev| ==> CohortKeyOf(rev[i].0) in sizes
    requires t <= u <= maxHorizon
    ensures Covers(Curves(rev, sizes, maxHorizon), t) && Covers(Curves(rev, sizes, maxHorizon), u)
    ensures forall p :: ArpuGrows(Curves(rev, sizes, maxHorizon), p, t, u)
  {
    var curves := Curves(rev, sizes, maxHorizon);
    forall j | 0 <= j < |curves| && curves[j].size > 0
      ensures curves[j].arpu[t].Some? && curves[j].arpu[u].Some? && curves[j].arpu[t].value <= curves[j].arpu[u].value
    {
      CohortGrows(rev, curves[j], maxHorizon, t, u);
    }
  }

  /** A cohort curve of non-negative revenue buckets does not lose ARPU from t to u. */
  lemma CohortGrows(rev: seq<(BucketKey, real)>, c: CohortCurve, maxHorizon: nat, t: nat, u: nat)
    requires DistinctKeys(rev) && NonNegative(rev)
    requires Accumulates(c, SeriesOf(rev, CurveKey(c)), maxHorizon)
    requires c.size > 0 && t <= u <= maxHorizon
    ensures c.arpu[t].Some? && c.arpu[u].Some? && c.arpu[t].value <= c.arpu[u].value
  {
    CurveNonDecreasing(c, SeriesOf(rev, CurveKey(c)), maxHorizon, t, u);
  }

}

=== FILE: calendar.dfy ===
/**
 * Calendar months. Every order date is truncated to the month that contains
 * it (a `datetime64[M]` cast) and offsets between months are computed from
 * the year and month components alone.
 */
module Calendar {

  datatype Date = Date(year: int, month: int, day: int)

  /** A date truncated to its month: the day is gone. */
  datatype YearMonth = YearMonth(year: int, month: int)

  predicate ValidDate(d: Date)
  {
    1 <= d.month <= 12 && 1 <= d.day <= 31
  }

  predicate ValidMonth(m: YearMonth)
  {
    1 <= m.month <= 12
  }

  /** Truncation of a date to its containing month. */
  function MonthOf(d: Date): (m: YearMonth)
    ensures ValidDate(d) ==> ValidMonth(m)
  {
    YearMonth(d.year, d.month)
  }

  /** Position of a month on one time line, `year*12 + (month-1)`. */
  function Ordinal(m: YearMonth): int
  {
    m.year * 12 + (m.month - 1)
  }

  /**
   * Months since acquisition: twelve times the difference of the years plus
   * the difference of the months. It is the exact gap between the two
   * months on the time line.
   */
  function MonthsSince(orderMonth: YearMonth, cohortMonth: YearMonth): (k: int)
    ensures k == Ordinal(orderMonth) - Ordinal(cohortMonth)
  {
    (orderMonth.year - cohortMonth.year) * 12 + (orderMonth.month - cohortMonth.month)
  }

  /** Valid months with the same position are the same month, so the minimum month of a group is unique. */
  lemma OrdinalInjective(a: YearMonth, b: YearMonth)
    requires ValidMonth(a) && ValidMonth(b)
    requires Ordinal(a) == Ordinal(b)
    ensures a == b
  {
  }

  /** Two dates in the same calendar month have the same offset from any cohort month: the day never matters. */
  lemma MonthsSinceIgnoresDay(d1: Date, d2: Date, cohortMonth: YearMonth)
    requires d1.year == d2.year && d1.month == d2.month
    ensures MonthsSince(MonthOf(d1), cohortMonth) == MonthsSince(MonthOf(d2), cohortMonth)
  {
  }

}

=== FILE: cohorts.dfy ===
/**
 * Cohort builder: every (product, customer) pair gets its earliest order
 * month as cohort month, every order gets its month offset from that cohort
 * month, revenue is summed per (product, cohort, offset) bucket and distinct
 * customers are counted per (product, cohort).
 */
module Cohorts {

  import opened Options
  import opened Calendar
  import opened Grouping

  /** One cleaned order row. */
  datatype Order = Order(customer: int, product: string, date: Date, value: real)

  /**
   * The one property of cleaned orders the monotonicity results need: no
   * order has a negative value. They hold whatever the dates are; valid
   * dates (`Calendar.ValidDate`) only make each month a real calendar month.
   */
  predicate ValuesNonNegative(orders: seq<Order>)
  {
    forall i :: 0 <= i < |orders| ==> orders[i].value >= 0.0
  }

  /** The products that were ordered. */
  function OrderedProducts(orders: seq<Order>): set<string>
  {
    set i | 0 <= i < |orders| :: orders[i].product
  }

  predicate Belongs(o: Order, product: string, customer: int)
  {
    o.product == product && o.customer == customer
  }

  /** Sum of `order_value` over the whole input. */
  function OrderTotal(orders: seq<Order>): real
  {
    if |orders| == 0 then 0.0 else orders[0].value + OrderTotal(orders[1..])
  }

  /**
   * The earliest order month of a (product, customer) pair, or None when the
   * pair has no order.
   */
  function CohortMonth(orders: seq<Order>, product: string, customer: int): (r: Option<YearMonth>)
    ensures r.None? <==> forall i {:trigger Belongs(orders[i], product, customer)} :: 0 <= i < |orders| ==> !Belongs(orders[i], product, customer)
    ensures r.Some? ==>
      exists i {:trigger Belongs(orders[i], product, customer)} :: 0 <= i < |orders| && Belongs(orders[i], product, customer) && MonthOf(orders[i].date) == r.value
    ensures r.Some? ==>
      forall i {:trigger Belongs(orders[i], product, customer)} :: 0 <= i < |orders| && Belongs(orders[i], product, customer) ==>
        Ordinal(r.value) <= Ordinal(MonthOf(orders[i].date))
  {
    if |orders| == 0 then None
    else
      var rest := CohortMonth(orders[1..], product, customer);
      assert forall i :: 1 <= i < |orders| ==> orders[i] == orders[1..][i - 1];
      var m := MonthOf(orders[0].date);
      if !Belongs(orders[0], product, customer) then rest
      else if rest.None? || Ordinal(m) <= Ordinal(rest.value) then Some(m)
      else rest
  }

  /** An order joined with its cohort month and its month offset. */
  datatype Tagged = Tagged(customer: int, product: string, cohort: YearMonth, monthsSince: int, value: real)

  /** Cohort month of the pair that order `i` belongs to. */
  function CohortOf(orders: seq<Order>, i: int): (c: YearMonth)
    requires 0 <= i < |orders|
    ensures CohortMonth(orders, orders[i].product, orders[i].customer) == Some(c)
    ensures exists j :: 0 <= j < |orders| && Belongs(orders[j], orders[i].product, orders[i].customer) && MonthOf(orders[j].date) == c
  {
    var r := CohortMonth(orders, orders[i].product, orders[i].customer);
    assert Belongs(orders[i], orders[i].product, orders[i].customer);
    r.value
  }

  /** The left merge of the cohort months onto the orders, with the month offset of each order. */
  function Tag(orders: seq<Order>): (rows: seq<Tagged>)
    ensures |rows| == |orders|
    ensures forall i {:trigger rows[i]} :: 0 <= i < |rows| ==>
      && rows[i].customer == orders[i].customer
      && rows[i].product == orders[i].product
      && rows[i].value == orders[i].value
      && CohortMonth(orders, orders[i].product, orders[i].customer) == Some(rows[i].cohort)
      && rows[i].monthsSince == Ordinal(MonthOf(orders[i].date)) - Ordinal(rows[i].cohort)
  {
    seq(|orders|, i requires 0 <= i < |orders| =>
      var c := CohortOf(orders, i);
      Tagged(orders[i].customer, orders[i].product, c, MonthsSince(MonthOf(orders[i].date), c), orders[i].value))
  }

  /**
   * The cohort month joined onto an order is the minimum order month of its
   * (product, customer) pair: no order of the pair is earlier and some order
   * of the pair falls in it.
   */
  lemma TagCohortIsMinimum(orders: seq<Order>, i: int)
    requires 0 <= i < |orders|
    ensures forall j :: 0 <= j < |orders| && Belongs(orders[j], orders[i].product, orders[i].customer) ==>
      Ordinal(Tag(orders)[i].cohort) <= Ordinal(MonthOf(orders[j].date))
    ensures exists j :: 0 <= j < |orders| && Belongs(orders[j], orders[i].product, orders[i].customer) && MonthOf(orders[j].date) == Tag(orders)[i].cohort
  {
    var rows := Tag(orders);
    assert CohortMonth(orders, orders[i].product, orders[i].customer) == Some(rows[i].cohort);
  }

  /** All orders of one (product, customer) pair are joined with the same cohort month. */
  lemma TagCohortSharedByPair(orders: seq<Order>, i: int, j: int)
    requires 0 <= i < |orders| && 0 <= j < |orders|
    requires Belongs(orders[j], orders[i].product, orders[i].customer)
    ensures Tag(orders)[i].cohort == Tag(orders)[j].cohort
  {
    var rows := Tag(orders);
    assert CohortMonth(orders, orders[i].product, orders[i].customer) == Some(rows[i].cohort);
    assert CohortMonth(orders, orders[j].product, orders[j].customer) == Some(rows[j].cohort);
  }

  /** Every order's month offset from its cohort month is non-negative. */
  lemma MonthsSinceNonNegative(orders: seq<Order>)
    ensures forall i :: 0 <= i < |orders| ==> Tag(orders)[i].monthsSince >= 0
  {
    var rows := Tag(orders);
    forall i | 0 <= i < |orders| ensures rows[i].monthsSince >= 0 {
      TagCohortIsMinimum(orders, i);
      assert Belongs(orders[i], orders[i].product, orders[i].customer);
    }
  }

  /** Key of a revenue bucket. */
  datatype BucketKey = BucketKey(product: string, cohort: YearMonth, offset: int)

  /** Key of a cohort. */
  datatype CohortKey = CohortKey(product: string, cohort: YearMonth)

  function KeyOf(r: Tagged): BucketKey
  {
    BucketKey(r.product, r.cohort, r.monthsSince)
  }

  function CohortKeyOf(k: BucketKey): CohortKey
  {
    CohortKey(k.product, k.cohort)
  }

  /** The (bucket, order_value) column pair that the revenue group-by runs over. */
  function Valued(rows: seq<Tagged>): (pairs: seq<(BucketKey, real)>)
    ensures |pairs| == |rows|
    ensures forall i :: 0 <= i < |rows| ==> pairs[i] == (KeyOf(rows[i]), rows[i].value)
  {
    seq(|rows|, i requires 0 <= i < |rows| => (KeyOf(rows[i]), rows[i].value))
  }

  /** Revenue per (product, cohort_month, months_since) bucket. */
  function Revenue(rows: seq<Tagged>): (rev: seq<(BucketKey, real)>)
    ensures DistinctKeys(rev)
    ensures forall k :: HasKey(rev, k) <==> exists i :: 0 <= i < |rows| && KeyOf(rows[i]) == k
    ensures forall k :: Lookup(rev, k) == SumFor(Valued(rows), k)
    ensures Total(rev) == Total(Valued(rows))
  {
    var pairs := Valued(rows);
    assert forall k :: HasKey(pairs, k) <==> exists i :: 0 <= i < |rows| && KeyOf(rows[i]) == k by {
      forall k | HasKey(pairs, k) ensures exists i :: 0 <= i < |rows| && KeyOf(rows[i]) == k {
        var i :| 0 <= i < |pairs| && pairs[i].0 == k;
        assert KeyOf(rows[i]) == k;
      }
      forall k | exists i :: 0 <= i < |rows| && KeyOf(rows[i]) == k ensures HasKey(pairs, k) {
        var i :| 0 <= i < |rows| && KeyOf(rows[i]) == k;
        assert pairs[i].0 == k;
      }
    }
    GroupSum(pairs)
  }

  /**
   * Revenue of cohort ck within its first t months: the value of the rows of
   * the cohort whose offset lies in 0..t.
   */
  function CohortRevenue(rows: seq<Tagged>, ck: CohortKey, t: int): real
  {
    if |rows| == 0 then 0.0
    else
      var r := rows[0];
      (if CohortKey(r.product, r.cohort) == ck && 0 <= r.monthsSince <= t then r.value else 0.0)
        + CohortRevenue(rows[1..], ck, t)
  }

  /** Before offset 0 a cohort has no revenue. */
  lemma {:induction false} CohortRevenueBeforeStart(rows: seq<Tagged>, ck: CohortKey, t: int)
    requires t < 0
    ensures CohortRevenue(rows, ck, t) == 0.0
  {
    if |rows| > 0 {
      CohortRevenueBeforeStart(rows[1..], ck, t);
    }
  }

  /**
   * Extending the window from t-1 to t adds exactly the revenue bucket
   * (ck, t) of the group-by.
   */
  lemma {:induction false} CohortRevenueStep(rows: seq<Tagged>, ck: CohortKey, t: int)
    requires t >= 0
    ensures CohortRevenue(rows, ck, t) == CohortRevenue(rows, ck, t - 1) + SumFor(Valued(rows), BucketKey(ck.product, ck.cohort, t))
  {
    if |rows| > 0 {
      assert Valued(rows)[1..] == Valued(rows[1..]);
      CohortRevenueStep(rows[1..], ck, t);
    }
  }

  /** Distinct customers of a cohort. */
  function Customers(rows: seq<Tagged>, ck: CohortKey): set<int>
  {
    set i | 0 <= i < |rows| && rows[i].product == ck.product && rows[i].cohort == ck.cohort :: rows[i].customer
  }

  /** Some tagged row belongs to cohort ck. */
  predicate RowCohort(rows: seq<Tagged>, ck: CohortKey)
  {
    exists i :: 0 <= i < |rows| && CohortKey(rows[i].product, rows[i].cohort) == ck
  }

  /**
   * Cohort size: distinct customers per (product, cohort_month), for every
   * cohort that has a row. The domain clause is `RowCohort` written out: as a
   * predicate call it would be unfolded, together with `Tag`, in every proof
   * that unfolds the `full` table.
   */
  function CohortSizes(rows: seq<Tagged>): (sizes: map<CohortKey, nat>)
    ensures forall ck :: ck in sizes <==> exists i :: 0 <= i < |rows| && CohortKey(rows[i].product, rows[i].cohort) == ck
    ensures forall ck :: ck in sizes ==> sizes[ck] == |Customers(rows, ck)| && sizes[ck] >= 1
  {
    var present := set i | 0 <= i < |rows| :: CohortKey(rows[i].product, rows[i].cohort);
    assert forall ck :: ck in present ==> |Customers(rows, ck)| >= 1 by {
      forall ck | ck in present ensures |Customers(rows, ck)| >= 1 {
        var i :| 0 <= i < |rows| && CohortKey(rows[i].product, rows[i].cohort) == ck;
        assert rows[i].customer in Customers(rows, ck);
      }
    }
    map ck | ck in present :: |Customers(rows, ck)|
  }

  /**
   * Every revenue bucket belongs to a cohort with a size row of at least one
   * customer, so the size lookup always succeeds and the NaN branch of the
   * ARPU division is never taken.
   */
  lemma EveryBucketHasCustomers(rows: seq<Tagged>)
    ensures forall i :: 0 <= i < |Revenue(rows)| ==>
      CohortKeyOf(Revenue(rows)[i].0) in CohortSizes(rows) && CohortSizes(rows)[CohortKeyOf(Revenue(rows)[i].0)] >= 1
  {
    var rev := Revenue(rows);
    forall i | 0 <= i < |rev| ensures CohortKeyOf(rev[i].0) in CohortSizes(rows) {
      assert HasKey(rev, rev[i].0);
      var j :| 0 <= j < |rows| && KeyOf(rows[j]) == rev[i].0;
      assert CohortKey(rows[j].product, rows[j].cohort) == CohortKeyOf(rev[i].0);
    }
  }

  /** No order is lost or counted twice: the buckets add up to the total order value. */
  lemma RevenueConservesOrderValue(orders: seq<Order>)
    ensures Total(Revenue(Tag(orders))) == OrderTotal(orders)
  {
    ValuedTotal(Tag(orders), orders);
  }

  lemma {:induction false} ValuedTotal(rows: seq<Tagged>, orders: seq<Order>)
    requires |rows| == |orders|
    requires forall i :: 0 <= i < |rows| ==> rows[i].value == orders[i].value
    ensures Total(Valued(rows)) == OrderTotal(orders)
  {
    if |rows| > 0 {
      assert Valued(rows)[1..] == Valued(rows[1..]);
      ValuedTotal(rows[1..], orders[1..]);
    }
  }

  /** With non-negative order values every bucket holds a non-negative revenue. */
  lemma RevenueNonNegative(orders: seq<Order>)
    requires ValuesNonNegative(orders)
    ensures NonNegative(Revenue(Tag(orders)))
  {
    var rows := Tag(orders);
    var rev := Revenue(rows);
    forall i | 0 <= i < |rev| ensures rev[i].1 >= 0.0 {
      SumForNonNegative(Valued(rows), rev[i].0);
      assert Lookup(rev, rev[i].0) == rev[i].1;
    }
  }

  /** The products that have a revenue bucket. */
  function BucketProducts(rev: seq<(BucketKey, real)>): set<string>
  {
    set k | 0 <= k < |rev| :: rev[k].0.product
  }

  /** The products of the tagged rows. */
  function RowProducts(rows: seq<Tagged>): set<string>
  {
    set i | 0 <= i < |rows| :: rows[i].product
  }

  /** Rows that copy the product column of the orders have the same products. */
  lemma SameProductColumn(rows: seq<Tagged>, orders: seq<Order>)
    requires |rows| == |orders|
    requires forall i :: 0 <= i < |rows| ==> rows[i].product == orders[i].product
    ensures RowProducts(rows) == OrderedProducts(orders)
  {
    forall p | p in OrderedProducts(orders) ensures p in RowProducts(rows) {
      var i :| 0 <= i < |orders| && orders[i].product == p;
      assert rows[i].product == p;
    }
  }

  /** Tagging keeps every order, so it keeps the set of products. */
  lemma TagProducts(orders: seq<Order>)
    ensures RowProducts(Tag(orders)) == OrderedProducts(orders)
  {
    SameProductColumn(Tag(orders), orders);
  }

  /** A product has a revenue bucket exactly when some row is of that product. */
  lemma RevenueProducts(rows: seq<Tagged>)
    ensures BucketProducts(Revenue(rows)) == RowProducts(rows)
  {
    var rev := Revenue(rows);
    forall p | p in RowProducts(rows) ensures p in BucketProducts(rev) {
      var i :| 0 <= i < |rows| && rows[i].product == p;
      assert HasKey(rev, KeyOf(rows[i]));
      var k :| 0 <= k < |rev| && rev[k].0 == KeyOf(rows[i]);
      assert rev[k].0.product == p;
    }
    forall p | p in BucketProducts(rev) ensures p in RowProducts(rows) {
      var k :| 0 <= k < |rev| && rev[k].0.product == p;
      assert HasKey(rev, rev[k].0);
      var i :| 0 <= i < |rows| && KeyOf(rows[i]) == rev[k].0;
      assert rows[i].product == p;
    }
  }

}

=== FILE: curves.dfy ===
/**
 * Per-cohort cumulative ARPU: each cohort's sparse revenue series is
 * reindexed to every offset 0..maxHorizon with 0 for the missing offsets,
 * turned into a running sum, and divided by the cohort size.
 */
module CohortCurves {

  import opened Options
  import opened Calendar
  import opened Grouping
  import opened Cohorts

  /**
   * Revenue of a sparse (offset, revenue) series over the offsets 0..t:
   * what the cumulative series must hold at t.
   */
  function RevenueThrough(s: seq<(int, real)>, t: int): (r: real)
    ensures t < 0 ==> r == 0.0
  {
    if |s| == 0 then 0.0
    else (if 0 <= s[0].0 <= t then s[0].1 else 0.0) + RevenueThrough(s[1..], t)
  }

  /** Going from t-1 to t adds exactly the revenue at offset t, or nothing when t is missing. */
  lemma {:induction false} RevenueThroughStep(s: seq<(int, real)>, t: int)
    requires DistinctKeys(s)
    requires t >= 0
    ensures RevenueThrough(s, t) == RevenueThrough(s, t - 1) + Lookup(s, t)
  {
    if |s| > 0 {
      assert DistinctKeys(s[1..]) by {
        forall i, j | 0 <= i < j < |s[1..]| ensures s[1..][i].0 != s[1..][j].0 {
          assert s[1..][i] == s[i + 1] && s[1..][j] == s[j + 1];
        }
      }
      RevenueThroughStep(s[1..], t);
      if s[0].0 == t {
        assert !HasKey(s[1..], t) by {
          forall i | 0 <= i < |s[1..]| ensures s[1..][i].0 != t {
            assert s[1..][i] == s[i + 1];
          }
        }
      }
    }
  }

  /**
   * The `complete_and_cumsum` helper: a dense series over the offsets
   * 0..maxHorizon whose value at t is the cohort's revenue at offsets up to t;
   * a missing offset contributes 0. Pandas refuses to reindex a series with
   * a repeated offset, hence the requirement.
   */
  function CompleteAndCumsum(s: seq<(int, real)>, maxHorizon: nat): (cum: seq<real>)
    requires DistinctKeys(s)
    ensures |cum| == maxHorizon + 1
    ensures forall t :: 0 <= t <= maxHorizon ==> cum[t] == RevenueThrough(s, t)
  {
    if maxHorizon == 0 then
      RevenueThroughStep(s, 0);
      [Lookup(s, 0)]
    else
      var prev := CompleteAndCumsum(s, maxHorizon - 1);
      RevenueThroughStep(s, maxHorizon);
      prev + [prev[maxHorizon - 1] + Lookup(s, maxHorizon)]
  }

  /** With non-negative revenue the cumulative series never decreases. */
  lemma {:induction false} CumulativeNonDecreasing(s: seq<(int, real)>, maxHorizon: nat)
    requires DistinctKeys(s)
    requires NonNegative(s)
    ensures forall t, u :: 0 <= t <= u <= maxHorizon ==>
      CompleteAndCumsum(s, maxHorizon)[t] <= CompleteAndCumsum(s, maxHorizon)[u]
  {
    var cum := CompleteAndCumsum(s, maxHorizon);
    forall t | 0 <= t < maxHorizon ensures cum[t] <= cum[t + 1] {
      RevenueThroughStep(s, t + 1);
      if HasKey(s, t + 1) {
        var i :| 0 <= i < |s| && s[i].0 == t + 1;
        assert Lookup(s, t + 1) == s[i].1;
      }
    }
    forall t, u | 0 <= t <= u <= maxHorizon ensures cum[t] <= cum[u] {
      var k := t;
      while k < u
        invariant t <= k <= u
        invariant cum[t] <= cum[k]
      {
        k := k + 1;
      }
    }
  }

  /** A cohort with revenue only at offsets 0 and 3, filled and summed up to horizon 5. */
  lemma GapFillExample(a: real, b: real)
    ensures CompleteAndCumsum([(0, a), (3, b)], 5) == [a, a, a, a + b, a + b, a + b]
  {
    var s: seq<(int, real)> := [(0, a), (3, b)];
    var cum := CompleteAndCumsum(s, 5);
    assert s[1..] == [(3, b)] && |s[1..][1..]| == 0;
    forall t | 0 <= t <= 5 ensures cum[t] == a + (if t >= 3 then b else 0.0) {
      assert RevenueThrough(s[1..], t) == (if t >= 3 then b else 0.0) + RevenueThrough(s[1..][1..], t);
    }
  }

  /**
   * Cumulative ARPU: the cumulative revenue divided by the cohort size, or
   * unknown at every offset when the size is zero.
   */
  function CohortArpu(cum: seq<real>, size: nat): (arpu: seq<Option<real>>)
    ensures |arpu| == |cum|
    ensures forall t :: 0 <= t < |cum| ==> (arpu[t].Some? <==> size > 0)
    ensures forall t :: 0 <= t < |cum| && arpu[t].Some? ==> arpu[t].value * (size as real) == cum[t]
  {
    seq(|cum|, t requires 0 <= t < |cum| => if size > 0 then Some(cum[t] / size as real) else None)
  }

  /** Dividing by a positive size keeps the order of the cumulative series. */
  lemma ArpuNonDecreasing(cum: seq<real>, size: nat, t: int, u: int)
    requires 0 <= t <= u < |cum|
    requires cum[t] <= cum[u]
    requires size > 0
    ensures CohortArpu(cum, size)[t].value <= CohortArpu(cum, size)[u].value
  {
    DivideMonotone(cum[t], cum[u], size as real);
  }

  lemma DivideMonotone(a: real, b: real, n: real)
    requires a <= b && n > 0.0
    ensures a / n <= b / n
  {
  }

  /** One cohort's rows of the `full` table. */
  datatype CohortCurve = CohortCurve(product: string, cohort: YearMonth, size: nat, arpu: seq<Option<real>>)

  /** The sparse (months_since, rev) series of one cohort. */
  function SeriesOf(rev: seq<(BucketKey, real)>, ck: CohortKey): (s: seq<(int, real)>)
    requires DistinctKeys(rev)
    ensures DistinctKeys(s)
    ensures forall i :: 0 <= i < |s| ==> HasKey(rev, BucketKey(ck.product, ck.cohort, s[i].0))
    ensures forall t :: Lookup(s, t) == Lookup(rev, BucketKey(ck.product, ck.cohort, t))
    ensures NonNegative(rev) ==> NonNegative(s)
  {
    if |rev| == 0 then []
    else
      var tail := rev[1..];
      KeysOfTail(rev);
      var rest := SeriesOf(tail, ck);
      if CohortKeyOf(rev[0].0) != ck then rest
      else
        var s := [(rev[0].0.offset, rev[0].1)] + rest;
        assert s[1..] == rest;
        assert forall i :: 1 <= i < |s| ==> s[i] == rest[i - 1];
        assert rev[0].0 == BucketKey(ck.product, ck.cohort, s[0].0);
        assert forall i :: 0 <= i < |rest| ==> rest[i].0 != s[0].0;
        s
  }

  /** The cohort a curve belongs to. */
  function CurveKey(c: CohortCurve): CohortKey
  {
    CohortKey(c.product, c.cohort)
  }

  /**
   * The curve holds the cumulative ARPU of `series` at every offset
   * 0..maxHorizon: unknown exactly when the cohort has no customer, and
   * otherwise the revenue at offsets up to t divided by the cohort size.
   */
  predicate Accumulates(c: CohortCurve, series: seq<(int, real)>, maxHorizon: nat)
  {
    && |c.arpu| == maxHorizon + 1
    && forall t :: 0 <= t <= maxHorizon ==>
      && (c.arpu[t].Some? <==> c.size > 0)
      && (c.arpu[t].Some? ==> c.arpu[t].value == RevenueThrough(series, t) / (c.size as real))
  }

  /** The rows of one cohort: its size and its cumulative ARPU at every offset 0..maxHorizon. */
  function BuildCurve(ck: CohortKey, size: nat, series: seq<(int, real)>, maxHorizon: nat): (c: CohortCurve)
    requires DistinctKeys(series)
    ensures CurveKey(c) == ck && c.size == size
    ensures Accumulates(c, series, maxHorizon)
  {
    CohortCurve(ck.product, ck.cohort, size, CohortArpu(CompleteAndCumsum(series, maxHorizon), size))
  }

  /** With non-negative revenue a cohort's cumulative ARPU never decreases along the offsets. */
  lemma CurveNonDecreasing(c: CohortCurve, series: seq<(int, real)>, maxHorizon: nat, t: int, u: int)
    requires DistinctKeys(series) && NonNegative(series)
    requires Accumulates(c, series, maxHorizon)
    requires c.size > 0
    requires 0 <= t <= u <= maxHorizon
    ensures c.arpu[t].Some? && c.arpu[u].Some? && c.arpu[t].value <= c.arpu[u].value
  {
    var cum := CompleteAndCumsum(series, maxHorizon);
    CumulativeNonDecreasing(series, maxHorizon);
    assert cum[t] == RevenueThrough(series, t) && cum[u] == RevenueThrough(series, u);
    DivideMonotone(cum[t], cum[u], c.size as real);
  }

  /**
   * The cohorts that have at least one revenue bucket, each listed once. The
   * membership clause is `HasCohort` written out: as a predicate call it
   * would be unfolded in every proof that unfolds the `full` table.
   */
  function CohortsOf(rev: seq<(BucketKey, real)>): (cks: seq<CohortKey>)
    ensures forall ck :: ck in cks <==> exists i :: 0 <= i < |rev| && CohortKeyOf(rev[i].0) == ck
    ensures forall i, j :: 0 <= i < j < |cks| ==> cks[i] != cks[j]
  {
    var all := seq(|rev|, i requires 0 <= i < |rev| => CohortKeyOf(rev[i].0));
    assert forall ck :: ck in all <==> exists i :: 0 <= i < |rev| && CohortKeyOf(rev[i].0) == ck by {
      forall ck | exists i :: 0 <= i < |rev| && CohortKeyOf(rev[i].0) == ck ensures ck in all {
        var i :| 0 <= i < |rev| && CohortKeyOf(rev[i].0) == ck;
        assert all[i] == ck;
      }
    }
    Dedup(all)
  }

  /**
   * A cohort's series, summed through offset t, is the cohort's revenue
   * within its first t months, when `rev` is the group-by-sum of `rows`.
   */
  lemma {:induction false} SeriesRevenue(rows: seq<Tagged>, rev: seq<(BucketKey, real)>, ck: CohortKey, t: int)
    requires DistinctKeys(rev)
    requires forall k :: Lookup(rev, k) == SumFor(Valued(rows), k)
    ensures RevenueThrough(SeriesOf(rev, ck), t) == CohortRevenue(rows, ck, t)
    decreases t + 1
  {
    var s := SeriesOf(rev, ck);
    if t < 0 {
      CohortRevenueBeforeStart(rows, ck, t);
    } else {
      RevenueThroughStep(s, t);
      CohortRevenueStep(rows, ck, t);
      assert Lookup(s, t) == Lookup(rev, BucketKey(ck.product, ck.cohort, t));
      SeriesRevenue(rows, rev, ck, t - 1);
    }
  }

  /**
   * Curves built from the group-by-sum of `rows` hold, at every offset t,
   * the cohort's revenue within its first t months divided by its size.
   */
  lemma CurvesHoldCohortRevenue(rows: seq<Tagged>, rev: seq<(BucketKey, real)>, curves: seq<CohortCurve>, maxHorizon: nat)
    requires DistinctKeys(rev)
    requires forall k :: Lookup(rev, k) == SumFor(Valued(rows), k)
    requires forall j :: 0 <= j < |curves| ==> |curves[j].arpu| == maxHorizon + 1 && curves[j].size >= 1
    requires forall j :: 0 <= j < |curves| ==> Accumulates(curves[j], SeriesOf(rev, CurveKey(curves[j])), maxHorizon)
    ensures forall j, t :: 0 <= j < |curves| && 0 <= t <= maxHorizon ==>
      curves[j].arpu[t] == Some(CohortRevenue(rows, CurveKey(curves[j]), t) / (curves[j].size as real))
  {
    forall j, t | 0 <= j < |curves| && 0 <= t <= maxHorizon
      ensures curves[j].arpu[t] == Some(CohortRevenue(rows, CurveKey(curves[j]), t) / (curves[j].size as real))
    {
      SeriesRevenue(rows, rev, CurveKey(curves[j]), t);
    }
  }

  /** One curve per listed cohort, in the same order. */
  function Build(rev: seq<(BucketKey, real)>, sizes: map<CohortKey, nat>, cks: seq<CohortKey>, maxHorizon: nat): (curves: seq<CohortCurve>)
    requires DistinctKeys(rev)
    requires forall j :: 0 <= j < |cks| ==> cks[j] in sizes
    ensures |curves| == |cks|
    ensures forall j :: 0 <= j < |curves| ==>
      && CurveKey(curves[j]) == cks[j] && curves[j].size == sizes[cks[j]]
      && Accumulates(curves[j], SeriesOf(rev, cks[j]), maxHorizon)
  {
    seq(|cks|, j requires 0 <= j < |cks| => BuildCurve(cks[j], sizes[cks[j]], SeriesOf(rev, cks[j]), maxHorizon))
  }

  /** Some revenue bucket belongs to cohort ck. */
  predicate HasCohort(rev: seq<(BucketKey, real)>, ck: CohortKey)
  {
    exists i :: 0 <= i < |rev| && CohortKeyOf(rev[i].0) == ck
  }

  /**
   * The `full` table: one curve per cohort with revenue and no other, each
   * cohort once, carrying the cohort's size from `sizes` and its cumulative
   * ARPU. Every cohort's size must be found in `sizes` (the source indexes
   * the first matching size row).
   */
  function Curves(rev: seq<(BucketKey, real)>, sizes: map<CohortKey, nat>, maxHorizon: nat): (curves: seq<CohortCurve>)
    requires DistinctKeys(rev)
    requires forall i :: 0 <= i < |rev| ==> CohortKeyOf(rev[i].0) in sizes
    ensures forall j :: 0 <= j < |curves| ==> HasCohort(rev, CurveKey(curves[j]))
    ensures forall i :: 0 <= i < |rev| ==> exists j :: 0 <= j < |curves| && CurveKey(curves[j]) == CohortKeyOf(rev[i].0)
    ensures forall j, k :: 0 <= j < k < |curves| ==> CurveKey(curves[j]) != CurveKey(curves[k])
    ensures forall j :: 0 <= j < |curves| ==>
      CurveKey(curves[j]) in sizes && curves[j].size == sizes[CurveKey(curves[j])]
    ensures forall j :: 0 <= j < |curves| ==> Accumulates(curves[j], SeriesOf(rev, CurveKey(curves[j])), maxHorizon)
  {
    var cks := CohortsOf(rev);
    assert forall j :: 0 <= j < |cks| ==> cks[j] in sizes by {
      forall j | 0 <= j < |cks| ensures cks[j] in sizes {
        assert cks[j] in cks;
      }
    }
    var curves := Build(rev, sizes, cks, maxHorizon);
    forall j | 0 <= j < |curves| ensures HasCohort(rev, CurveKey(curves[j])) {
      assert cks[j] in cks;
    }
    forall i | 0 <= i < |rev| ensures exists j :: 0 <= j < |curves| && CurveKey(curves[j]) == CohortKeyOf(rev[i].0) {
      assert CohortKeyOf(rev[i].0) in cks;
    }
    curves
  }

  /** Some curve is of cohort ck. */
  predicate HasCurve(curves: seq<CohortCurve>, ck: CohortKey)
  {
    exists j :: 0 <= j < |curves| && CurveKey(curves[j]) == ck
  }

  /**
   * Curves that measure the cohorts of `rows`: each is dense up to
   * maxHorizon, its size is the number of distinct customers of its cohort,
   * and its ARPU at t is the cohort's revenue within its first t months
   * divided by that size.
   */
  predicate MeasuresCohorts(curves: seq<CohortCurve>, rows: seq<Tagged>, maxHorizon: nat)
  {
    forall j :: 0 <= j < |curves| ==>
      && |curves[j].arpu| == maxHorizon + 1
      && curves[j].size >= 1
      && curves[j].size == |Customers(rows, CurveKey(curves[j]))|
      && forall t :: 0 <= t <= maxHorizon ==>
        curves[j].arpu[t] == Some(CohortRevenue(rows, CurveKey(curves[j]), t) / (curves[j].size as real))
  }

  /**
   * Curves keyed by exactly the cohorts of a group-by of `rows` are keyed by
   * exactly the cohorts that occur among `rows`.
   */
  lemma KeyedByRowCohorts(rows: seq<Tagged>, rev: seq<(BucketKey, real)>, curves: seq<CohortCurve>)
    requires forall k :: HasKey(rev, k) <==> exists i :: 0 <= i < |rows| && KeyOf(rows[i]) == k
    requires forall j :: 0 <= j < |curves| ==> HasCohort(rev, CurveKey(curves[j]))
    requires forall i :: 0 <= i < |rev| ==> exists j :: 0 <= j < |curves| && CurveKey(curves[j]) == CohortKeyOf(rev[i].0)
    ensures forall ck :: HasCurve(curves, ck) <==> RowCohort(rows, ck)
  {
    forall ck | HasCurve(curves, ck) ensures RowCohort(rows, ck) {
      var j :| 0 <= j < |curves| && CurveKey(curves[j]) == ck;
      var k :| 0 <= k < |rev| && CohortKeyOf(rev[k].0) == ck;
      assert HasKey(rev, rev[k].0);
      var i :| 0 <= i < |rows| && KeyOf(rows[i]) == rev[k].0;
      assert CohortKey(rows[i].product, rows[i].cohort) == ck;
    }
    forall ck | RowCohort(rows, ck) ensures HasCurve(curves, ck) {
      var i :| 0 <= i < |rows| && CohortKey(rows[i].product, rows[i].cohort) == ck;
      assert HasKey(rev, KeyOf(rows[i]));
      var k :| 0 <= k < |rev| && rev[k].0 == KeyOf(rows[i]);
      var j :| 0 <= j < |curves| && CurveKey(curves[j]) == CohortKeyOf(rev[k].0);
    }
  }

  /** Products that have at least one curve. */
  function CurveProducts(curves: seq<CohortCurve>): set<string>
  {
    set i | 0 <= i < |curves| :: curves[i].product
  }

  /** Curves keyed by exactly the cohorts of `rev` have exactly the products of `rev`. */
  lemma KeyedProducts(rev: seq<(BucketKey, real)>, curves: seq<CohortCurve>)
    requires forall j :: 0 <= j < |curves| ==> HasCohort(rev, CurveKey(curves[j]))
    requires forall i :: 0 <= i < |rev| ==> exists j :: 0 <= j < |curves| && CurveKey(curves[j]) == CohortKeyOf(rev[i].0)
    ensures CurveProducts(curves) == BucketProducts(rev)
  {
    forall p | p in BucketProducts(rev) ensures p in CurveProducts(curves) {
      var k :| 0 <= k < |rev| && rev[k].0.product == p;
      var j :| 0 <= j < |curves| && CurveKey(curves[j]) == CohortKeyOf(rev[k].0);
      assert curves[j].product == p;
    }
    forall p | p in CurveProducts(curves) ensures p in BucketProducts(rev) {
      var j :| 0 <= j < |curves| && curves[j].product == p;
      assert HasCohort(rev, CurveKey(curves[j]));
      var k :| 0 <= k < |rev| && CohortKeyOf(rev[k].0) == CurveKey(curves[j]);
      assert rev[k].0.product == p;
    }
  }

  /** The `full` table has a curve for exactly the products that have a revenue bucket. */
  lemma CurvesProducts(rev: seq<(BucketKey, real)>, sizes: map<CohortKey, nat>, maxHorizon: nat)
    requires DistinctKeys(rev)
    requires forall i :: 0 <= i < |rev| ==> CohortKeyOf(rev[i].0) in sizes
    ensures CurveProducts(Curves(rev, sizes, maxHorizon)) == BucketProducts(rev)
  {
    KeyedProducts(rev, Curves(rev, sizes, maxHorizon));
  }
}

=== FILE: grouping.dfy ===
/**
 * Keyed tables: a sequence of (key, value) rows, the shape of a grouped and
 * summed data frame. `GroupSum` is the group-by-and-sum; `Dedup` lists the
 * distinct values of a column.
 */
module Grouping {

  /** Sum of the value column. */
  function Total<K>(g: seq<(K, real)>): real
  {
    if |g| == 0 then 0.0 else g[0].1 + Total(g[1..])
  }

  predicate HasKey<K(==,!new)>(g: seq<(K, real)>, k: K)
  {
    exists i :: 0 <= i < |g| && g[i].0 == k
  }

  predicate DistinctKeys<K(==,!new)>(g: seq<(K, real)>)
  {
    forall i, j :: 0 <= i < j < |g| ==> g[i].0 != g[j].0
  }

  predicate NonNegative<K>(g: seq<(K, real)>)
  {
    forall i :: 0 <= i < |g| ==> g[i].1 >= 0.0
  }

  /** The keys of a non-empty table are its first key and the keys of its tail. */
  lemma KeysOfTail<K(!new)>(g: seq<(K, real)>)
    requires |g| > 0
    ensures forall k :: HasKey(g, k) <==> g[0].0 == k || HasKey(g[1..], k)
    ensures DistinctKeys(g) ==> DistinctKeys(g[1..]) && !HasKey(g[1..], g[0].0)
  {
    forall k | HasKey(g, k) && g[0].0 != k ensures HasKey(g[1..], k) {
      var i :| 0 <= i < |g| && g[i].0 == k;
      assert g[1..][i - 1].0 == k;
    }
    forall k | HasKey(g[1..], k) ensures HasKey(g, k) {
      var i :| 0 <= i < |g[1..]| && g[1..][i].0 == k;
      assert g[i + 1].0 == k;
    }
    if DistinctKeys(g) {
      forall i | 0 <= i < |g[1..]| ensures g[1..][i].0 != g[0].0 {
        assert g[1..][i] == g[i + 1];
      }
      forall i, j | 0 <= i < j < |g[1..]| ensures g[1..][i].0 != g[1..][j].0 {
        assert g[1..][i] == g[i + 1] && g[1..][j] == g[j + 1];
      }
    }
  }

  /** The value stored under `k`, or 0 when no row has that key (the fill value of a reindex). */
  function Lookup<K(==,!new)>(g: seq<(K, real)>, k: K): (r: real)
    ensures !HasKey(g, k) ==> r == 0.0
    ensures DistinctKeys(g) ==> forall i :: 0 <= i < |g| && g[i].0 == k ==> r == g[i].1
  {
    if |g| == 0 then 0.0
    else if g[0].0 == k then g[0].1
    else
      assert forall i :: 1 <= i < |g| ==> g[i] == g[1..][i - 1];
      Lookup(g[1..], k)
  }

  /** Sum of the values of all rows with key `k`, duplicates included. */
  function SumFor<K(==,!new)>(pairs: seq<(K, real)>, k: K): real
  {
    if |pairs| == 0 then 0.0
    else (if pairs[0].0 == k then pairs[0].1 else 0.0) + SumFor(pairs[1..], k)
  }

  /** Adds `v` to the row of key `k`, appending a new row when there is none. */
  function AddTo<K(==,!new)>(g: seq<(K, real)>, k: K, v: real): (r: seq<(K, real)>)
    requires DistinctKeys(g)
    ensures DistinctKeys(r)
    ensures forall k' :: HasKey(r, k') <==> HasKey(g, k') || k' == k
    ensures forall k' :: Lookup(r, k') == Lookup(g, k') + (if k' == k then v else 0.0)
    ensures Total(r) == Total(g) + v
  {
    if |g| == 0 then
      var r := [(k, v)];
      assert r[0].0 == k;
      r
    else if g[0].0 == k then
      var r := [(k, g[0].1 + v)] + g[1..];
      assert r[1..] == g[1..];
      assert |r| == |g| && forall i :: 0 <= i < |r| ==> r[i].0 == g[i].0;
      r
    else
      KeysOfTail(g);
      var rest := AddTo(g[1..], k, v);
      var r := [g[0]] + rest;
      assert r[1..] == rest;
      assert forall k' :: HasKey(r, k') ==> k' == g[0].0 || HasKey(rest, k') by {
        forall k' | HasKey(r, k') && k' != g[0].0 ensures HasKey(rest, k') {
          var i :| 0 <= i < |r| && r[i].0 == k';
          assert rest[i - 1].0 == k';
        }
      }
      assert forall k' :: HasKey(rest, k') ==> HasKey(r, k') by {
        forall k' | HasKey(rest, k') ensures HasKey(r, k') {
          var i :| 0 <= i < |rest| && rest[i].0 == k';
          assert r[i + 1].0 == k';
        }
      }
      assert HasKey(r, g[0].0) by { assert r[0].0 == g[0].0; }
      assert DistinctKeys(r) by {
        forall i, j | 0 <= i < j < |r| ensures r[i].0 != r[j].0 {
          if i == 0 {
            assert HasKey(rest, r[j].0) by { assert rest[j - 1] == r[j]; }
          } else {
            assert rest[i - 1] == r[i] && rest[j - 1] == r[j];
          }
        }
      }
      r
  }

  /** Group-by on the key column followed by a sum of the value column. */
  function GroupSum<K(==,!new)>(pairs: seq<(K, real)>): (g: seq<(K, real)>)
    ensures DistinctKeys(g)
    ensures forall k :: HasKey(g, k) <==> HasKey(pairs, k)
    ensures forall k :: Lookup(g, k) == SumFor(pairs, k)
    ensures Total(g) == Total(pairs)
  {
    if |pairs| == 0 then []
    else
      var g := AddTo(GroupSum(pairs[1..]), pairs[0].0, pairs[0].1);
      KeysOfTail(pairs);
      g
  }

  /** The total of a table with non-negative values is non-negative, and so is each key's share of it. */
  lemma {:induction false} SumForNonNegative<K(!new)>(pairs: seq<(K, real)>, k: K)
    requires NonNegative(pairs)
    ensures Total(pairs) >= 0.0
    ensures SumFor(pairs, k) >= 0.0
  {
    if |pairs| > 0 {
      SumForNonNegative(pairs[1..], k);
    }
  }

  /** The distinct values of a column: nothing lost, nothing repeated. */
  function Dedup<T(==,!new)>(s: seq<T>): (r: seq<T>)
    ensures forall x :: x in r <==> x in s
    ensures forall i, j :: 0 <= i < j < |r| ==> r[i] != r[j]
  {
    if |s| == 0 then []
    else
      var rest := Dedup(s[1..]);
      if s[0] in rest then rest else [s[0]] + rest
  }

}

=== FILE: options.dfy ===
/**
 * Optional values. The pipeline marks "no value here" with a NaN, an empty
 * cell after an outer join, or an absent row; the model uses `None` for all
 * of them.
 */
module Options {

  datatype Option<+T> = None | Some(value: T)

}

=== FILE: pipeline.dfy ===
/**
 * `product_recap_fixed` end to end: cohorts, revenue buckets and sizes,
 * per-cohort cumulative ARPU up to the larger horizon, the size-weighted
 * blend per product, and the recap at the two horizons ranked by ratio.
 */
module Pipeline {

  import opened Options
  import opened Cohorts
  import opened CohortCurves
  import opened Blend
  import opened Recap

  function Max(a: nat, b: nat): (m: nat)
    ensures a <= m && b <= m && (m == a || m == b)
  {
    if a >= b then a else b
  }

  /** The product column of the orders, one entry per order. */
  function ProductColumn(orders: seq<Order>): (ps: seq<string>)
    ensures forall p :: p in ps <==> p in OrderedProducts(orders)
  {
    var ps := seq(|orders|, i requires 0 <= i < |orders| => orders[i].product);
    assert forall i :: 0 <= i < |orders| ==> ps[i] == orders[i].product;
    ps
  }

  /**
   * The `full` table of the orders: a curve for every ordered product, each
   * dense up to maxHorizon and of a cohort of at least one customer, so every
   * ARPU in it is known.
   */
  function FullTable(orders: seq<Order>, maxHorizon: nat): (curves: seq<CohortCurve>)
    ensures CurveProducts(curves) == OrderedProducts(orders)
    ensures forall j :: 0 <= j < |curves| ==> |curves[j].arpu| == maxHorizon + 1 && curves[j].size >= 1
    ensures forall j, t :: 0 <= j < |curves| && 0 <= t <= maxHorizon ==> curves[j].arpu[t].Some?
  {
    var rows := Tag(orders);
    var rev := Revenue(rows);
    var sizes := CohortSizes(rows);
    EveryBucketHasCustomers(rows);
    TagProducts(orders);
    RevenueProducts(rows);
    CurvesProducts(rev, sizes, maxHorizon);
    Curves(rev, sizes, maxHorizon)
  }

  /**
   * What the `full` table holds: each curve's size is the number of distinct
   * customers of its cohort, and at offset t its ARPU is the cohort's revenue
   * within its first t months divided by that size.
   */
  lemma FullTableValues(orders: seq<Order>, maxHorizon: nat)
    ensures MeasuresCohorts(FullTable(orders, maxHorizon), Tag(orders), maxHorizon)
  {
    var rows := Tag(orders);
    var rev := Revenue(rows);
    var sizes := CohortSizes(rows);
    EveryBucketHasCustomers(rows);
    var curves := Curves(rev, sizes, maxHorizon);
    assert FullTable(orders, maxHorizon) == curves;
    CurvesHoldCohortRevenue(rows, rev, curves, maxHorizon);
  }

  /**
   * The loop over the revenue groups gives one curve per cohort of the
   * orders: no cohort twice, and a curve for a cohort exactly when some
   * order belongs to it.
   */
  lemma FullTableCohorts(orders: seq<Order>, maxHorizon: nat)
    ensures forall j, k :: 0 <= j < k < |FullTable(orders, maxHorizon)| ==>
      CurveKey(FullTable(orders, maxHorizon)[j]) != CurveKey(FullTable(orders, maxHorizon)[k])
    ensures forall ck :: HasCurve(FullTable(orders, maxHorizon), ck) <==> RowCohort(Tag(orders), ck)
  {
    var rows := Tag(orders);
    var rev := Revenue(rows);
    var sizes := CohortSizes(rows);
    EveryBucketHasCustomers(rows);
    var curves := Curves(rev, sizes, maxHorizon);
    assert FullTable(orders, maxHorizon) == curves;
    KeyedByRowCohorts(rows, rev, curves);
  }

  /**
   * With non-negative order values no cohort's cumulative ARPU decreases
   * between two offsets t <= u.
   */
  lemma FullTableGrows(orders: seq<Order>, maxHorizon: nat, t: nat, u: nat)
    requires ValuesNonNegative(orders)
    requires t <= u <= maxHorizon
    ensures Covers(FullTable(orders, maxHorizon), t) && Covers(FullTable(orders, maxHorizon), u)
    ensures forall p :: ArpuGrows(FullTable(orders, maxHorizon), p, t, u)
  {
    var rows := Tag(orders);
    var rev := Revenue(rows);
    var sizes := CohortSizes(rows);
    EveryBucketHasCustomers(rows);
    RevenueNonNegative(orders);
    CurvesGrow(rev, sizes, maxHorizon, t, u);
    assert FullTable(orders, maxHorizon) == Curves(rev, sizes, maxHorizon);
  }

  /** The weighted curve `prod_w`: every ordered product at every offset 0..maxHorizon, holding the blend. */
  function ProductCurve(orders: seq<Order>, maxHorizon: nat): (w: map<(string, int), real>)
    ensures forall k :: k in w <==> 0 <= k.1 <= maxHorizon && k.0 in OrderedProducts(orders)
    ensures forall k :: k in w ==> Blended(FullTable(orders, maxHorizon), k.0, k.1) == Some(w[k])
  {
    var curves := FullTable(orders, maxHorizon);
    WeightedCurveKeys(curves, maxHorizon);
    WeightedCurve(curves, maxHorizon)
  }

  /**
   * The recap table that `product_recap_fixed` returns when it returns at
   * all: one row per product, holding `prod_w` at the two horizons and their
   * ratio, ranked by ratio.
   */
  function RecapRows(orders: seq<Order>, h1: nat, h24: nat): (recap: seq<RecapRow>)
    ensures ReadsCurve(recap, ProductCurve(orders, Max(h1, h24)), h1, h24)
  {
    RecapTable(ProductCurve(orders, Max(h1, h24)), ProductColumn(orders), h1, h24)
  }

  /**
   * The recap has one row for every ordered product and no other row, and
   * both horizons are known in every row; the ratio is defined exactly when
   * LTV_1m is not zero.
   */
  lemma RecapCoversProducts(orders: seq<Order>, h1: nat, h24: nat)
    ensures forall p :: HasRow(RecapRows(orders, h1, h24), p) <==> p in OrderedProducts(orders)
    ensures forall i :: 0 <= i < |RecapRows(orders, h1, h24)| ==> Complete(RecapRows(orders, h1, h24)[i])
  {
    var w := ProductCurve(orders, Max(h1, h24));
    var ps := ProductColumn(orders);
    RecapOfDenseCurve(w, ps, h1, h24, Max(h1, h24));
    assert RecapRows(orders, h1, h24) == RecapTable(w, ps, h1, h24);
  }

  /**
   * With non-negative order values and horizon_1 <= horizon_24, no product's
   * LTV_24m is below its LTV_1m.
   */
  lemma RecapLtvGrows(orders: seq<Order>, h1: nat, h24: nat)
    requires ValuesNonNegative(orders)
    requires h1 <= h24
    ensures forall i :: 0 <= i < |RecapRows(orders, h1, h24)| ==>
      var row := RecapRows(orders, h1, h24)[i];
      row.ltv1.Some? && row.ltv24.Some? && row.ltv1.value <= row.ltv24.value
  {
    var maxHorizon := Max(h1, h24);
    var curves := FullTable(orders, maxHorizon);
    var w := ProductCurve(orders, maxHorizon);
    var ps := ProductColumn(orders);
    assert RecapRows(orders, h1, h24) == RecapTable(w, ps, h1, h24);
    RecapCoversProducts(orders, h1, h24);
    FullTableGrows(orders, maxHorizon, h1, h24);
    LtvGrowsWithBlend(w, ps, curves, h1, h24);
  }

  /**
   * A recap read from a blend of curves whose ARPU grows from h1 to h24 has
   * LTV_1m <= LTV_24m in every row.
   */
  lemma LtvGrowsWithBlend(w: map<(string, int), real>, ps: seq<string>, curves: seq<CohortCurve>, h1: nat, h24: nat)
    requires Covers(curves, h1) && Covers(curves, h24)
    requires forall p :: ArpuGrows(curves, p, h1, h24)
    requires forall p :: (p, h1) in w ==> Blended(curves, p, h1) == Some(w[(p, h1)])
    requires forall p :: (p, h24) in w ==> Blended(curves, p, h24) == Some(w[(p, h24)])
    requires forall i :: 0 <= i < |RecapTable(w, ps, h1, h24)| ==> Complete(RecapTable(w, ps, h1, h24)[i])
    ensures forall i :: 0 <= i < |RecapTable(w, ps, h1, h24)| ==>
      var row := RecapTable(w, ps, h1, h24)[i];
      row.ltv1.Some? && row.ltv24.Some? && row.ltv1.value <= row.ltv24.value
  {
    var rows := RecapTable(w, ps, h1, h24);
    forall i | 0 <= i < |rows| ensures rows[i].ltv1.value <= rows[i].ltv24.value {
      var p := rows[i].product;
      assert Complete(rows[i]);
      assert rows[i].ltv1 == Some(w[(p, h1)]) && rows[i].ltv24 == Some(w[(p, h24)]);
      BlendNonDecreasing(curves, p, h1, h24);
    }
  }

  /**
   * `product_recap_fixed(df, horizon_1, horizon_24)`. Without any order there
   * is no cohort frame to concatenate and the call fails (None); otherwise it
   * returns the recap table.
   */
  function ProductRecap(orders: seq<Order>, h1: nat, h24: nat): (r: Option<seq<RecapRow>>)
    ensures r.None? <==> |orders| == 0
    ensures r.Some? ==> r.value == RecapRows(orders, h1, h24) && |r.value| >= 1
  {
    if |orders| == 0 then None
    else
      RecapCoversProducts(orders, h1, h24);
      assert orders[0].product in OrderedProducts(orders);
      assert HasRow(RecapRows(orders, h1, h24), orders[0].product);
      Some(RecapRows(orders, h1, h24))
  }

}

=== FILE: recap.dfy ===
/**
 * The recap table: for each product, the blended cumulative ARPU at the two
 * horizons (an outer join of the two horizon slices of the weighted curve),
 * their ratio, and the ranking by that ratio, largest first, undefined last.
 */
module Recap {

  import opened Options
  import opened Grouping

  /** One row of the recap: LTV_1m, LTV_24m and LTV_24m/1m_ratio of a product. */
  datatype RecapRow = RecapRow(product: string, ltv1: Option<real>, ltv24: Option<real>, ratio: Option<real>)

  /**
   * LTV_24m / LTV_1m. Undefined when either side is missing or when the
   * divisor is zero (where floating point would give inf or NaN).
   */
  function Ratio(ltv1: Option<real>, ltv24: Option<real>): (r: Option<real>)
    ensures r.Some? <==> ltv1.Some? && ltv24.Some? && ltv1.value != 0.0
    ensures r.Some? ==> r.value * ltv1.value == ltv24.value
  {
    if ltv1.Some? && ltv24.Some? && ltv1.value != 0.0 then Some(ltv24.value / ltv1.value) else None
  }

  /** A ratio of at least one: the 24-month value reaches the 1-month value. */
  lemma RatioAtLeastOne(ltv1: Option<real>, ltv24: Option<real>)
    requires ltv1.Some? && ltv24.Some? && 0.0 < ltv1.value <= ltv24.value
    ensures Ratio(ltv1, ltv24).Some? && Ratio(ltv1, ltv24).value >= 1.0
  {
    var a, b := ltv1.value, ltv24.value;
    var r := Ratio(ltv1, ltv24).value;
    assert (r - 1.0) * a == b - a;
    NonNegativeFactor(r - 1.0, a);
  }

  /** A factor whose product with a positive number is non-negative is itself non-negative. */
  lemma NonNegativeFactor(x: real, a: real)
    requires a > 0.0 && x * a >= 0.0
    ensures x >= 0.0
  {
  }

  /**
   * The slice of the weighted curve at horizon h, read for product p: the
   * value of the row of p whose offset is h, or nothing when no row of the
   * curve has that product and offset.
   */
  function Horizon(w: map<(string, int), real>, p: string, h: int): (v: Option<real>)
    ensures v.None? <==> forall k :: k in w ==> k.0 != p || k.1 != h
    ensures forall k :: k in w && k.0 == p && k.1 == h ==> v == Some(w[k])
  {
    if (p, h) in w then Some(w[(p, h)]) else None
  }

  /**
   * The recap row of product p, made of its two horizon slices. Its ratio
   * is defined exactly when p has a row at both horizons and the first is
   * not zero, and then it scales LTV_1m to LTV_24m.
   */
  function RowOf(w: map<(string, int), real>, p: string, h1: int, h24: int): (row: RecapRow)
    ensures row.product == p
    ensures row.ltv1 == Horizon(w, p, h1) && row.ltv24 == Horizon(w, p, h24)
    ensures row.ratio.Some? <==> (p, h1) in w && (p, h24) in w && w[(p, h1)] != 0.0
    ensures row.ratio.Some? ==> row.ratio.value * w[(p, h1)] == w[(p, h24)]
  {
    var a := Horizon(w, p, h1);
    var b := Horizon(w, p, h24);
    RecapRow(p, a, b, Ratio(a, b))
  }

  /** p has a row at horizon h1 or at horizon h24, so the outer join keeps it. */
  predicate InEitherSlice(w: map<(string, int), real>, p: string, h1: int, h24: int)
  {
    (p, h1) in w || (p, h24) in w
  }

  /** The candidates that have a row at either horizon, in their original order. */
  function InSlices(w: map<(string, int), real>, products: seq<string>, h1: int, h24: int): (kept: seq<string>)
    ensures forall p :: p in kept <==> p in products && InEitherSlice(w, p, h1, h24)
  {
    if |products| == 0 then []
    else
      var rest := InSlices(w, products[1..], h1, h24);
      assert forall p :: p in products <==> p == products[0] || p in products[1..];
      if InEitherSlice(w, products[0], h1, h24) then [products[0]] + rest else rest
  }

  /**
   * The outer join of the two horizon slices on product: one row for every
   * listed product that has a row at either horizon, each product once.
   */
  function Join(w: map<(string, int), real>, products: seq<string>, h1: int, h24: int): (rows: seq<RecapRow>)
    ensures forall p :: HasRow(rows, p) <==> p in products && InEitherSlice(w, p, h1, h24)
    ensures UniqueProducts(rows)
    ensures forall i :: 0 <= i < |rows| ==> rows[i] == RowOf(w, rows[i].product, h1, h24)
  {
    var ps := Dedup(InSlices(w, products, h1, h24));
    var rows := seq(|ps|, i requires 0 <= i < |ps| => RowOf(w, ps[i], h1, h24));
    assert forall p :: p in ps ==> exists i :: 0 <= i < |rows| && rows[i].product == p by {
      forall p | p in ps ensures exists i :: 0 <= i < |rows| && rows[i].product == p {
        var i :| 0 <= i < |ps| && ps[i] == p;
        assert rows[i].product == p;
      }
    }
    assert forall i :: 0 <= i < |rows| ==> rows[i].product == ps[i];
    rows
  }

  /** Row a may come before row b in the ranking: b has no ratio, or both have one and a's is not smaller. */
  predicate Before(a: RecapRow, b: RecapRow)
  {
    b.ratio.None? || (a.ratio.Some? && a.ratio.value >= b.ratio.value)
  }

  /** Ranked by ratio, largest first, rows without a ratio last. */
  predicate Ranked(rows: seq<RecapRow>)
  {
    forall i, j :: 0 <= i < j < |rows| ==> Before(rows[i], rows[j])
  }

  /** Some row is about product p. */
  predicate HasRow(rows: seq<RecapRow>, p: string)
  {
    exists i :: 0 <= i < |rows| && rows[i].product == p
  }

  /** Two tables holding the same rows cover the same products. */
  lemma SameRowsSameProducts(a: seq<RecapRow>, b: seq<RecapRow>)
    requires forall y :: y in a <==> y in b
    ensures forall p :: HasRow(a, p) <==> HasRow(b, p)
  {
    forall p | HasRow(a, p) ensures HasRow(b, p) {
      var i :| 0 <= i < |a| && a[i].product == p;
      assert a[i] in b;
    }
    forall p | HasRow(b, p) ensures HasRow(a, p) {
      var i :| 0 <= i < |b| && b[i].product == p;
      assert b[i] in a;
    }
  }

  /** No product has two rows. */
  predicate UniqueProducts(rows: seq<RecapRow>)
  {
    forall i, j :: 0 <= i < j < |rows| ==> rows[i].product != rows[j].product
  }

  /** Inserts a row in front of the first row it may precede. */
  function Insert(x: RecapRow, s: seq<RecapRow>): (r: seq<RecapRow>)
    ensures multiset(r) == multiset(s) + multiset{x}
    ensures forall y :: y in r <==> y == x || y in s
  {
    if |s| == 0 then [x]
    else if Before(x, s[0]) then [x] + s
    else
      assert s == [s[0]] + s[1..];
      [s[0]] + Insert(x, s[1..])
  }

  lemma {:induction false} InsertRanked(x: RecapRow, s: seq<RecapRow>)
    requires Ranked(s)
    ensures Ranked(Insert(x, s))
  {
    if |s| > 0 && !Before(x, s[0]) {
      var rest := Insert(x, s[1..]);
      assert Ranked(s[1..]) by {
        forall i, j | 0 <= i < j < |s[1..]| ensures Before(s[1..][i], s[1..][j]) {
          assert s[1..][i] == s[i + 1] && s[1..][j] == s[j + 1];
        }
      }
      InsertRanked(x, s[1..]);
      var r := [s[0]] + rest;
      forall j | 0 <= j < |rest| ensures Before(s[0], rest[j]) {
        assert rest[j] in rest;
        if rest[j] != x {
          var k :| 0 <= k < |s[1..]| && s[1..][k] == rest[j];
          assert s[k + 1] == rest[j];
        }
      }
      assert forall i, j :: 0 <= i < j < |r| ==> Before(r[i], r[j]) by {
        forall i, j | 0 <= i < j < |r| ensures Before(r[i], r[j]) {
          assert r[j] == rest[j - 1];
          if i > 0 {
            assert r[i] == rest[i - 1];
          }
        }
      }
    } else if |s| > 0 {
      var r := [x] + s;
      forall i, j | 0 <= i < j < |r| ensures Before(r[i], r[j]) {
        assert r[j] == s[j - 1];
        if i > 0 {
          assert r[i] == s[i - 1];
        }
      }
    }
  }

  lemma {:induction false} InsertUnique(x: RecapRow, s: seq<RecapRow>)
    requires UniqueProducts(s)
    requires forall i :: 0 <= i < |s| ==> s[i].product != x.product
    ensures UniqueProducts(Insert(x, s))
  {
    if |s| > 0 && !Before(x, s[0]) {
      var rest := Insert(x, s[1..]);
      assert UniqueProducts(s[1..]) by {
        forall i, j | 0 <= i < j < |s[1..]| ensures s[1..][i].product != s[1..][j].product {
          assert s[1..][i] == s[i + 1] && s[1..][j] == s[j + 1];
        }
      }
      assert forall i :: 0 <= i < |s[1..]| ==> s[1..][i] == s[i + 1];
      InsertUnique(x, s[1..]);
      var r := [s[0]] + rest;
      forall j | 0 <= j < |rest| ensures s[0].product != rest[j].product {
        assert rest[j] in rest;
        if rest[j] != x {
          var k :| 0 <= k < |s[1..]| && s[1..][k] == rest[j];
          assert s[k + 1] == rest[j];
        }
      }
      forall i, j | 0 <= i < j < |r| ensures r[i].product != r[j].product {
        assert r[j] == rest[j - 1];
        if i > 0 {
          assert r[i] == rest[i - 1];
        }
      }
    } else if |s| > 0 {
      var r := [x] + s;
      forall i, j | 0 <= i < j < |r| ensures r[i].product != r[j].product {
        assert r[j] == s[j - 1];
        if i > 0 {
          assert r[i] == s[i - 1];
        }
      }
    }
  }

  /** Insertion sort on the ratio. */
  function Ranking(rows: seq<RecapRow>): (r: seq<RecapRow>)
    ensures multiset(r) == multiset(rows)
    ensures forall y :: y in r <==> y in rows
  {
    if |rows| == 0 then []
    else
      assert rows == [rows[0]] + rows[1..];
      Insert(rows[0], Ranking(rows[1..]))
  }

  lemma {:induction false} RankingRanked(rows: seq<RecapRow>)
    ensures Ranked(Ranking(rows))
  {
    if |rows| > 0 {
      RankingRanked(rows[1..]);
      InsertRanked(rows[0], Ranking(rows[1..]));
    }
  }

  lemma {:induction false} RankingUnique(rows: seq<RecapRow>)
    ensures UniqueProducts(rows) ==> UniqueProducts(Ranking(rows))
  {
    if |rows| > 0 && UniqueProducts(rows) {
      var tail := rows[1..];
      assert UniqueProducts(tail) by {
        forall i, j | 0 <= i < j < |tail| ensures tail[i].product != tail[j].product {
          assert tail[i] == rows[i + 1] && tail[j] == rows[j + 1];
        }
      }
      RankingUnique(tail);
      var rest := Ranking(tail);
      forall i | 0 <= i < |rest| ensures rest[i].product != rows[0].product {
        assert rest[i] in rest;
        var k :| 0 <= k < |tail| && tail[k] == rest[i];
        assert rows[k + 1] == rest[i];
      }
      InsertUnique(rows[0], rest);
    }
  }

  /**
   * `sort_values(ascending=False)` on the ratio column: the same rows, the
   * defined ratios first in non-increasing order, the undefined ones last.
   */
  function SortByRatio(rows: seq<RecapRow>): (r: seq<RecapRow>)
    ensures multiset(r) == multiset(rows)
    ensures forall i, j :: 0 <= i < j < |r| && r[i].ratio.None? ==> r[j].ratio.None?
    ensures forall i, j :: 0 <= i < j < |r| && r[j].ratio.Some? ==>
      r[i].ratio.Some? && r[i].ratio.value >= r[j].ratio.value
    ensures forall y :: y in r <==> y in rows
    ensures UniqueProducts(rows) ==> UniqueProducts(r)
    ensures Ranked(r)
  {
    RankingRanked(rows);
    RankingUnique(rows);
    var r := Ranking(rows);
    assert forall i, j :: 0 <= i < j < |r| ==> Before(r[i], r[j]);
    r
  }

  /**
   * A recap read from the weighted curve w: no product twice, every row the
   * reading of w for its product at the two horizons, ranked by ratio.
   */
  predicate ReadsCurve(rows: seq<RecapRow>, w: map<(string, int), real>, h1: int, h24: int)
  {
    && UniqueProducts(rows)
    && (forall i :: 0 <= i < |rows| ==> rows[i] == RowOf(w, rows[i].product, h1, h24))
    && Ranked(rows)
  }

  /** The recap table: the outer join of the two horizon slices, ranked by ratio. */
  function RecapTable(w: map<(string, int), real>, products: seq<string>, h1: int, h24: int): (rows: seq<RecapRow>)
    ensures forall p :: HasRow(rows, p) <==> p in products && InEitherSlice(w, p, h1, h24)
    ensures UniqueProducts(rows)
    ensures forall i :: 0 <= i < |rows| ==> rows[i] == RowOf(w, rows[i].product, h1, h24)
    ensures forall i :: 0 <= i < |rows| ==>
      && rows[i].ltv1 == (if (rows[i].product, h1) in w then Some(w[(rows[i].product, h1)]) else None)
      && rows[i].ltv24 == (if (rows[i].product, h24) in w then Some(w[(rows[i].product, h24)]) else None)
      && rows[i].ratio == Ratio(rows[i].ltv1, rows[i].ltv24)
    ensures forall i, j :: 0 <= i < j < |rows| && rows[i].ratio.None? ==> rows[j].ratio.None?
    ensures forall i, j :: 0 <= i < j < |rows| && rows[j].ratio.Some? ==>
      rows[i].ratio.Some? && rows[i].ratio.value >= rows[j].ratio.value
    ensures Ranked(rows)
    ensures ReadsCurve(rows, w, h1, h24)
  {
    var joined := Join(w, products, h1, h24);
    var rows := SortByRatio(joined);
    SameRowsSameProducts(rows, joined);
    assert forall i :: 0 <= i < |rows| ==> rows[i] in joined;
    rows
  }

  /** Both horizons are known, and the ratio is defined exactly when LTV_1m is not zero. */
  predicate Complete(row: RecapRow)
  {
    row.ltv1.Some? && row.ltv24.Some? && (row.ratio.Some? <==> row.ltv1.value != 0.0)
  }

  /**
   * When both horizons are inside a weighted curve that has every offset
   * 0..maxHorizon for every product of `products`, the recap has one row per
   * product and both horizons are known in every row.
   */
  lemma RecapOfDenseCurve(w: map<(string, int), real>, products: seq<string>, h1: int, h24: int, maxHorizon: int)
    requires forall k :: k in w <==> 0 <= k.1 <= maxHorizon && k.0 in products
    requires 0 <= h1 <= maxHorizon && 0 <= h24 <= maxHorizon
    ensures forall p :: HasRow(RecapTable(w, products, h1, h24), p) <==> p in products
    ensures forall i :: 0 <= i < |RecapTable(w, products, h1, h24)| ==> Complete(RecapTable(w, products, h1, h24)[i])
  {
    var rows := RecapTable(w, products, h1, h24);
    forall i | 0 <= i < |rows|
      ensures rows[i].ltv1.Some? && rows[i].ltv24.Some?
    {
      assert HasRow(rows, rows[i].product);
    }
  }

  /**
   * A horizon before offset 0 reads nothing from a weighted curve, whose
   * offsets are months since acquisition: every recap row has an unknown
   * value at that horizon and an unknown ratio.
   */
  lemma NegativeHorizonUnknown(w: map<(string, int), real>, products: seq<string>, h1: int, h24: int)
    requires forall k :: k in w ==> k.1 >= 0
    requires h1 < 0
    ensures forall i :: 0 <= i < |RecapTable(w, products, h1, h24)| ==>
      RecapTable(w, products, h1, h24)[i].ltv1.None? && RecapTable(w, products, h1, h24)[i].ratio.None?
  {
  }
}

=== FILE: scenario.dfy ===
/**
 * A worked example: two customers of one product, both acquired in
 * January. Customer 1 orders 10 in January and 5 in February,
 * customer 2 orders 20 in January. The cohort has two customers and
 * cumulative revenue 30 and 35, so its ARPU, and the weighted curve of the
 * product, is 15.0 at offset 0 and 17.5 at offset 1.
 */
module Scenario {

  import opened Options
  import opened Calendar
  import opened Cohorts
  import opened CohortCurves
  import opened Blend
  import opened Recap
  import opened Pipeline

  const Jan := YearMonth(2024, 1)

  /** The cohort of product "p" acquired in January. */
  const JanCohort := CohortKey("p", Jan)

  function Sample(): seq<Order>
  {
    [ Order(1, "p", Date(2024, 1, 5), 10.0),
      Order(1, "p", Date(2024, 2, 10), 5.0),
      Order(2, "p", Date(2024, 1, 20), 20.0) ]
  }

  /** The orders with their cohort month and offset joined on. */
  function SampleRows(): seq<Tagged>
  {
    [ Tagged(1, "p", Jan, 0, 10.0),
      Tagged(1, "p", Jan, 1, 5.0),
      Tagged(2, "p", Jan, 0, 20.0) ]
  }

  /** Customer 1 first orders in January, not in February. */
  lemma FirstCustomerCohort()
    ensures CohortMonth(Sample(), "p", 1) == Some(Jan)
  {
    var o := Sample();
    assert Belongs(o[0], "p", 1) && !Belongs(o[2], "p", 1);
    assert Ordinal(MonthOf(o[0].date)) < Ordinal(MonthOf(o[1].date));
  }

  /** Customer 2 orders only in January. */
  lemma SecondCustomerCohort()
    ensures CohortMonth(Sample(), "p", 2) == Some(Jan)
  {
    var o := Sample();
    assert Belongs(o[2], "p", 2) && !Belongs(o[0], "p", 2) && !Belongs(o[1], "p", 2);
  }

  /** Order i of the sample is tagged as row i of SampleRows. */
  lemma SampleRowTagged(i: int)
    requires 0 <= i < 3
    ensures |Tag(Sample())| == 3 && Tag(Sample())[i] == SampleRows()[i]
  {
    if i == 0 {
      FirstCustomerCohort();
    } else if i == 1 {
      FirstCustomerCohort();
    } else {
      SecondCustomerCohort();
    }
  }

  /** Both customers' earliest month is January, so every order is tagged with the January cohort. */
  lemma SampleTagged()
    ensures Tag(Sample()) == SampleRows()
  {
    SampleRowTagged(0);
    SampleRowTagged(1);
    SampleRowTagged(2);
    SameThree(Tag(Sample()), SampleRows());
  }

  /** Two sequences of three elements that agree at every index are equal. */
  lemma SameThree<T>(a: seq<T>, b: seq<T>)
    requires |a| == 3 == |b|
    requires a[0] == b[0] && a[1] == b[1] && a[2] == b[2]
    ensures a == b
  {
    assert forall i :: 0 <= i < 3 ==> a[i] == b[i];
  }

  /**
   * Rows that form one cohort, January's for product "p", of customers 1
   * and 2, with revenue 30 in its first month and 35 in its first two.
   */
  ghost predicate OneJanuaryCohort(rows: seq<Tagged>)
  {
    && (forall ck :: RowCohort(rows, ck) <==> ck == JanCohort)
    && Customers(rows, JanCohort) == {1, 2}
    && CohortRevenue(rows, JanCohort, 0) == 30.0
    && CohortRevenue(rows, JanCohort, 1) == 35.0
  }

  /** The tagged sample forms the one January cohort. */
  lemma SampleCohort()
    ensures OneJanuaryCohort(SampleRows())
  {
    var rows := SampleRows();
    assert RowCohort(rows, JanCohort) by {
      assert CohortKey(rows[0].product, rows[0].cohort) == JanCohort;
    }
    assert 1 in Customers(rows, JanCohort) by {
      assert rows[0].product == "p" && rows[0].cohort == Jan;
    }
    assert 2 in Customers(rows, JanCohort) by {
      assert rows[2].product == "p" && rows[2].cohort == Jan;
    }
    assert rows[1..] == [rows[1], rows[2]] && rows[1..][1..] == [rows[2]] && rows[1..][1..][1..] == [];
  }

  /**
   * Curves tabulating the cohorts of `rows` up to maxHorizon: one curve per
   * cohort that occurs among the rows and no other, each dense, sized by
   * the cohort's distinct customers and holding its revenue per customer.
   */
  ghost predicate Tabulates(curves: seq<CohortCurve>, rows: seq<Tagged>, maxHorizon: nat)
  {
    && (forall j, k :: 0 <= j < k < |curves| ==> CurveKey(curves[j]) != CurveKey(curves[k]))
    && (forall ck :: HasCurve(curves, ck) <==> RowCohort(rows, ck))
    && MeasuresCohorts(curves, rows, maxHorizon)
  }

  /** The `full` table tabulates the cohorts of the tagged orders. */
  lemma FullTableTabulates(orders: seq<Order>, maxHorizon: nat)
    ensures Tabulates(FullTable(orders, maxHorizon), Tag(orders), maxHorizon)
  {
    FullTableCohorts(orders, maxHorizon);
    FullTableValues(orders, maxHorizon);
  }

  /** The keys f takes on the elements of s. */
  function KeysOf<T, K>(s: seq<T>, f: T -> K): set<K>
  {
    set i | 0 <= i < |s| :: f(s[i])
  }

  /** Elements with pairwise different keys have as many keys as elements. */
  lemma {:induction false} InjectiveKeysCount<T, K>(s: seq<T>, f: T -> K)
    requires forall i, j :: 0 <= i < j < |s| ==> f(s[i]) != f(s[j])
    ensures |KeysOf(s, f)| == |s|
  {
    if |s| > 0 {
      InjectiveKeysCount(s[1..], f);
      assert KeysOf(s, f) == {f(s[0])} + KeysOf(s[1..], f);
    }
  }

  /** Elements with pairwise different keys that all share one key are at most one. */
  lemma AtMostOne<T, K>(s: seq<T>, f: T -> K, k: K)
    requires forall i, j :: 0 <= i < j < |s| ==> f(s[i]) != f(s[j])
    requires forall i :: 0 <= i < |s| ==> f(s[i]) == k
    ensures |s| <= 1
  {
    InjectiveKeysCount(s, f);
    if |s| > 0 {
      assert f(s[0]) in KeysOf(s, f);
      assert KeysOf(s, f) == {k};
    }
  }

  /** A table of the one January cohort is the single curve of size 2 with ARPU 15.0 then 17.5. */
  lemma OneCohortTable(curves: seq<CohortCurve>, rows: seq<Tagged>)
    requires OneJanuaryCohort(rows)
    requires Tabulates(curves, rows, 1)
    ensures curves == [CohortCurve("p", Jan, 2, [Some(15.0), Some(17.5)])]
  {
    assert HasCurve(curves, JanCohort);
    forall j | 0 <= j < |curves| ensures CurveKey(curves[j]) == JanCohort {
      assert HasCurve(curves, CurveKey(curves[j]));
    }
    AtMostOne(curves, CurveKey, JanCohort);
    var c := curves[0];
    assert |{1, 2}| == 2;
    assert c.size == 2;
    assert c.arpu[0] == Some(30.0 / 2.0);
    assert c.arpu[1] == Some(35.0 / 2.0);
    assert c.arpu == [Some(15.0), Some(17.5)];
  }

  /** The `full` table of orders forming the one January cohort: one curve, of two customers, with ARPU 15.0 then 17.5. */
  lemma SampleTable(orders: seq<Order>)
    requires OneJanuaryCohort(Tag(orders))
    ensures FullTable(orders, 1) == [CohortCurve("p", Jan, 2, [Some(15.0), Some(17.5)])]
  {
    FullTableTabulates(orders, 1);
    OneCohortTable(FullTable(orders, 1), Tag(orders));
  }

  /** Every sample row is of product "p". */
  lemma SampleRowProducts(rows: seq<Tagged>)
    requires rows == SampleRows()
    ensures forall p :: p in RowProducts(rows) <==> p == "p"
  {
    assert rows[0].product == "p";
    forall p | p in RowProducts(rows) ensures p == "p" {
      var i :| 0 <= i < |rows| && rows[i].product == p;
    }
  }

  /** Orders tagged as the sample are all of product "p". */
  lemma SampleProducts(orders: seq<Order>)
    requires Tag(orders) == SampleRows()
    ensures forall p :: p in OrderedProducts(orders) <==> p == "p"
  {
    TagProducts(orders);
    SampleRowProducts(Tag(orders));
  }

  /** The January curve alone blends to its own ARPU at both offsets. */
  lemma OneCurveBlend(w: map<(string, int), real>, curves: seq<CohortCurve>, ps: set<string>)
    requires curves == [CohortCurve("p", Jan, 2, [Some(15.0), Some(17.5)])]
    requires forall p :: p in ps <==> p == "p"
    requires forall k :: k in w <==> 0 <= k.1 <= 1 && k.0 in ps
    requires forall k :: k in w ==> Blended(curves, k.0, k.1) == Some(w[k])
    ensures w == map[("p", 0) := 15.0, ("p", 1) := 17.5]
  {
    BlendSingleCohort(curves, "p", 0, 0);
    BlendSingleCohort(curves, "p", 1, 0);
    assert ("p", 0) in w && ("p", 1) in w;
  }

  /**
   * The weighted curve of orders of product "p" alone whose `full` table is
   * the sample's: 15.0 at offset 0 and 17.5 at offset 1, and nothing else.
   */
  lemma SampleCurve(orders: seq<Order>)
    requires forall p :: p in OrderedProducts(orders) <==> p == "p"
    requires FullTable(orders, 1) == [CohortCurve("p", Jan, 2, [Some(15.0), Some(17.5)])]
    ensures ProductCurve(orders, 1) == map[("p", 0) := 15.0, ("p", 1) := 17.5]
  {
    OneCurveBlend(ProductCurve(orders, 1), FullTable(orders, 1), OrderedProducts(orders));
  }

  /** A recap covering only "p", every row read from the sample's weighted curve, is the single row of "p". */
  lemma OneProductRecap(recap: seq<RecapRow>, w: map<(string, int), real>, ps: set<string>)
    requires w == map[("p", 0) := 15.0, ("p", 1) := 17.5]
    requires forall p :: p in ps <==> p == "p"
    requires forall p :: HasRow(recap, p) <==> p in ps
    requires UniqueProducts(recap)
    requires forall i :: 0 <= i < |recap| ==> recap[i] == RowOf(w, recap[i].product, 0, 1)
    ensures recap == [RecapRow("p", Some(15.0), Some(17.5), Some(17.5 / 15.0))]
  {
    assert HasRow(recap, "p");
    forall i | 0 <= i < |recap| ensures recap[i].product == "p" {
      assert HasRow(recap, recap[i].product);
    }
    AtMostOne(recap, (r: RecapRow) => r.product, "p");
    assert recap[0] == RowOf(w, "p", 0, 1);
  }

  /**
   * The recap at horizons 0 and 1 of orders of product "p" alone whose
   * weighted curve is the sample's: one row, 15.0 and 17.5, ratio 17.5/15.0.
   */
  lemma SampleRecap(orders: seq<Order>)
    requires forall p :: p in OrderedProducts(orders) <==> p == "p"
    requires ProductCurve(orders, 1) == map[("p", 0) := 15.0, ("p", 1) := 17.5]
    ensures RecapRows(orders, 0, 1) == [RecapRow("p", Some(15.0), Some(17.5), Some(17.5 / 15.0))]
  {
    RecapCoversProducts(orders, 0, 1);
    OneProductRecap(RecapRows(orders, 0, 1), ProductCurve(orders, 1), OrderedProducts(orders));
  }

  /**
   * The worked example end to end: the `full` table has the one January
   * curve with size 2 and ARPU 15.0 then 17.5, the weighted curve holds
   * 15.0 and 17.5, and the recap at horizons 0 and 1 is the single row of
   * "p" with ratio 17.5/15.0.
   */
  lemma SampleScenario()
    ensures FullTable(Sample(), 1) == [CohortCurve("p", Jan, 2, [Some(15.0), Some(17.5)])]
    ensures ProductCurve(Sample(), 1) == map[("p", 0) := 15.0, ("p", 1) := 17.5]
    ensures RecapRows(Sample(), 0, 1) == [RecapRow("p", Some(15.0), Some(17.5), Some(17.5 / 15.0))]
  {
    SampleTagged();
    SampleCohort();
    SampleProducts(Sample());
    SampleTable(Sample());
    SampleCurve(Sample());
    SampleRecap(Sample());
  }
}
